=== FILE: README.md ===
# Vocabulary index builder — a Dafny model

The curriculum build tools generate a "vocabulary index" page per language. It
lists every vocabulary term in collation order under letter headings, each term
with its links. A navigation bar shows every letter of the locale alphabet and
links only the letters that have a heading. This project models the core of
that generator, `utilities/build-tools/index.rb`:

- the locale alphabet (`locale_alphabet`);
- the navigation bar (`alphabet_links`), as a sequence of link/plain items;
- the first-byte tests `capital?`, `lowercase?` and `non_alpha_char?`;
- the acronym/gloss test `keep_Capitalized?`;
- the word-by-word case fold `index_downcase`, with its `CAPITALS` exceptions;
- the bucketing loop of `generate_html_list`.

The bucketing loop is written as a pure left fold over the already collated
term list. It produces the letter buckets, the used letters and the console
warnings as data instead of HTML text.

Modules:

- `Results`: `Option` and `Result`.
- `RubyString`: the Ruby `String` operations the generator relies on: `downcase`, the first UTF-8 byte, `strip`, `gsub(': ', '')`, awk-style `split(' ')`/`join(' ')` and substring search.
- `Locale`: the alphabets and the navigation bar.
- `CaseFold`: `capital?`, `lowercase?`, `non_alpha_char?`, `keep_Capitalized?`, `CAPITALS` and `index_downcase`.
- `Filing`: the filing letter of a term, with `I18n.transliterate` as a table.
- `IndexBuilder`: the loop of `generate_html_list`, its reference definitions (`Letters`, `Compress`, `Mapped`, `Unmapped`, `Flatten`) and the theorems connecting the two.
- `Scenarios`: worked examples on concrete vocabularies.

The model follows the code as written, including where the code's behaviour
differs from what its comments and surrounding documentation suggest:

- The list shows the `index_downcase` form of every term. `keep_Capitalized?` is never called. So "API (Application Programming Interface)" is listed as "API (application programming interface)", and "Índice" as "índice" (`Scenarios.AcronymGloss`, `Scenarios.IndiceFiledUnderI`).
- Normalisation removes every ": " in a term, not only a trailing one (`RubyString.RemoveColonSpaceCut`). Removing once can create a new ": ", so normalising is not idempotent (`RubyString.RemoveColonSpaceNotIdempotent`).
- A heading opens, and its letter counts as used, before the link map is consulted. A letter whose terms are all unmapped therefore gets an empty section and a live navigation link (`Scenarios.UnmappedTermOpensLetter`).
- No term is dropped because of its letter. A character the alphabet lacks is filed under its transliteration, or under "?" when the table has none.
- The `CAPITALS` entry "Creative Commons" contains a space. It can never equal a single word, so `index_downcase` never applies it (`CaseFold.CreativeCommonsNeverAWord`).
- A term that is blank after normalisation has no first character. `vocab[0].downcase` then raises. The model returns `Failure(NoFirstCharacter(warned))`, where `warned` holds the warnings the earlier terms had already printed (`IndexBuilder.BuildFails`, `IndexBuilder.BuildStopsAtFirstBlank`).
- The letter sections follow the runs of equal filing letters in the collated list, not the letters themselves. When a letter comes back after another one (a transliteration such as "œ" to "oe" can cause this), it opens a second section and is pushed to the used letters a second time (`IndexBuilder.BuildBuckets`, `Scenarios.RecurringLetter`).
- `keep_Capitalized?` calls `match?` with each `CAPITALS` entry, which Ruby turns into a regular expression. No entry contains a regular-expression metacharacter, so each test is a plain substring test.
- A warning names the case-folded term. The lookup uses the normalised authored term (`Scenarios.LookupByAuthoredTerm`).

## Model

| member | source | states |
|---|---|---|
| RubyString.Lower | utilities/build-tools/index.rb:199 | `downcase` of one character never yields an upper-case letter, keeps ASCII ASCII and whitespace whitespace, yields a-z exactly for ASCII letters, and changes only upper-case letters |
| RubyString.Downcase | utilities/build-tools/index.rb:199 | `downcase` keeps the length, folds each character independently and leaves no upper-case letter |
| RubyString.LeadByte | utilities/build-tools/index.rb:78 | `bytes[0]` of an ASCII character is its code; of any other character it is at least 0xC2, so never in an ASCII letter range |
| RubyString.Strip | utilities/build-tools/index.rb:100 | `strip` is empty exactly when the term is all blanks; otherwise it is the slice between the leading and trailing blanks and starts and ends with a non-blank |
| RubyString.StripIdempotent | utilities/build-tools/index.rb:100 | stripping twice is stripping once |
| RubyString.RemoveColonSpaceIdentity | utilities/build-tools/index.rb:100 | `gsub(': ', '')` leaves a term unchanged exactly when it contains no ": " |
| RubyString.RemoveColonSpaceNotIdempotent | utilities/build-tools/index.rb:100 | removing ": " once can create a new ": ": "::  x" becomes ": x" and then "x" |
| RubyString.RemoveColonSpace | utilities/build-tools/index.rb:100 | `gsub(': ', '')` never lengthens a term, empties it only if it was empty or ended in a space, and keeps a last character other than a space; `RemoveColonSpaceCut` states that every ": " of the term is deleted |
| RubyString.RemoveColonSpaceCut | utilities/build-tools/index.rb:100 | every ": " is deleted, including one right after a ":" ("x:: y" gives "x:y"), and the text before and after it is handled separately |
| RubyString.RemoveColonSpaceAppend | utilities/build-tools/index.rb:100 | the removal is local: cut anywhere except right after a ":", the two pieces are handled separately |
| RubyString.Words | utilities/build-tools/index.rb:194 | awk-style `split(' ')` yields only non-empty fields free of separators |
| RubyString.WordsSqueeze | utilities/build-tools/index.rb:194-202 | joining the fields with single spaces gives the text with the separators at both ends dropped and every inner run of separators turned into one space, computed independently one character at a time |
| RubyString.WordsUnique | utilities/build-tools/index.rb:194 | the fields are the one list of separator-free words whose single-space join is that squeezed text: the maximal runs of non-separators, in order |
| RubyString.WordsJoin | utilities/build-tools/index.rb:194-202 | splitting the single-space join of separator-free words gives back the words |
| RubyString.Join | utilities/build-tools/index.rb:202 | `join(' ')` puts one space between consecutive words; its meaning is stated by `WordsJoin` (splitting the join gives the words back) and `WordsSqueeze` (joining the split gives the squeezed text) |
| RubyString.WordsEmpty | utilities/build-tools/index.rb:194 | the split is empty exactly when the text is all separators |
| RubyString.WordsFirst | utilities/build-tools/index.rb:194 | the first field starts at the first non-separator character |
| Locale.Alphabet | utilities/build-tools/index.rb:41-47 | "es" gives a..n, ñ, o..z (27 letters); every other language gives the 26 consecutive letters a..z; all lower case |
| Locale.AlphabetDistinct | utilities/build-tools/index.rb:41-47 | no letter occurs twice in an alphabet |
| Locale.AlphabetLinks | utilities/build-tools/index.rb:49-57 | one item per alphabet letter in alphabet order, a link exactly when the one-letter string is among the used letters |
| Locale.AlphabetLinksCoverAlphabet | utilities/build-tools/index.rb:49-57 | every alphabet letter appears in the bar, and no letter twice |
| CaseFold.Capital | utilities/build-tools/index.rb:77-79 | no answer for the empty string (Ruby raises); true exactly when the first character is A-Z |
| CaseFold.Lowercase | utilities/build-tools/index.rb:81-83 | no answer for the empty string; true exactly when the first character is a-z |
| CaseFold.NonAlphaChar | utilities/build-tools/index.rb:73-75 | no answer for the empty string; true exactly when the first character is not an ASCII letter, hence for every non-ASCII first character |
| CaseFold.KeepCapitalizedFromMeaning | utilities/build-tools/index.rb:182-190 | the loop returns true exactly when some remaining item is a substring or, with items left, a gloss is present |
| CaseFold.KeepCapitalized | utilities/build-tools/index.rb:179-191 | `keep_Capitalized?` holds exactly when some `CAPITALS` entry is a substring or the term has a parenthesised gloss on one line |
| RubyString.Contains | utilities/build-tools/index.rb:184 | `match?` with a literal entry: an empty entry always matches and an entry longer than the term never does; `KeepCapitalized` states the substring test it takes part in |
| CaseFold.HasGlossScan | utilities/build-tools/index.rb:186 | the test `/\(.+\)/` (a "(" and a later ")" on one line with at least one character between) agrees with a one-pass scan through three states |
| CaseFold.NotCapital | utilities/build-tools/index.rb:17-18 | a word that does not start with an upper-case ASCII letter, or whose length no entry has, is not a `CAPITALS` entry and so is always downcased |
| CaseFold.FoldWord | utilities/build-tools/index.rb:195-201 | a word keeps its length and stays a word, is either kept or downcased, and has no upper-case letter unless it is a `CAPITALS` entry |
| CaseFold.IndexDowncase | utilities/build-tools/index.rb:193-203 | splitting the folded term again gives the folded words of the term, and the folded term is already squeezed: `join(' ')` leaves no separator at either end and exactly one space between words |
| CaseFold.IndexDowncaseWords | utilities/build-tools/index.rb:193-203 | the folded term has as many words as the term, and word i is word i kept (a `CAPITALS` entry) or downcased |
| CaseFold.FoldWordIdempotent | utilities/build-tools/index.rb:195-201 | folding a folded word changes nothing |
| CaseFold.IndexDowncaseIdempotent | utilities/build-tools/index.rb:193-203 | `index_downcase` applied twice equals applied once |
| CaseFold.IndexDowncaseEmpty | utilities/build-tools/index.rb:193-203 | the fold is empty exactly when the term is all whitespace |
| CaseFold.IndexDowncaseFirst | utilities/build-tools/index.rb:193-203 | the fold starts with the term's first non-separator character, up to case |
| CaseFold.CreativeCommonsNeverAWord | utilities/build-tools/index.rb:17-18 | no field of any split equals "Creative Commons", so that entry never keeps a word |
| Filing.Transliterate | utilities/build-tools/index.rb:112 | transliteration is never empty, keeps ASCII, gives the table's approximation for a non-ASCII character the table has, and "?" for one it lacks |
| Filing.CharLetter | utilities/build-tools/index.rb:107-112 | a letter of the alphabet is its own filing letter; any other ASCII character files under its downcase; any other non-ASCII character under its downcased approximation, or "?" when the table has none; the result has no upper-case letter |
| Filing.FilingLetter | utilities/build-tools/index.rb:106-112 | the filing letter is non-empty and lower case; it is the downcased first character when the alphabet has it or it is ASCII, else that character's downcased approximation, or "?" when the table has none |
| Filing.TermLetterByFirstChar | utilities/build-tools/index.rb:106-112 | a term is filed by its first non-separator character alone, downcased |
| Filing.TermLetter | utilities/build-tools/index.rb:106-112 | the filing letter of a normalised term is non-empty and has no upper-case letter; `TermLetterByFirstChar` states which letter it is |
| Filing.TermLetterInAlphabet | utilities/build-tools/index.rb:106-112 | a term whose first letter (in either case) is in the alphabet files under one alphabet letter |
| Filing.ApproximationFilesInAlphabet | utilities/build-tools/index.rb:109-112 | a non-ASCII character whose approximation is one ASCII lower-case letter files under a letter of every alphabet |
| Filing.LatinAccentsFileInAlphabet | utilities/build-tools/index.rb:109-112 | a Latin-1 accented letter with a one-letter approximation files under an alphabet letter in every language |
| IndexBuilder.Open | utilities/build-tools/index.rb:114-124 | after a term the previous letter is that term's letter; opening never touches the warnings |
| IndexBuilder.Lookup | utilities/build-tools/index.rb:125-130 | the lookup never changes the previous letter or the used letters |
| IndexBuilder.Step | utilities/build-tools/index.rb:104-131 | one iteration fails exactly when the term's fold is empty |
| IndexBuilder.OpenKeepsHeaders | utilities/build-tools/index.rb:114-124 | opening extends the used letters (equal to the bucket letters) by the letter unless it repeats the previous one, and leaves the items alone |
| IndexBuilder.LookupKeepsContents | utilities/build-tools/index.rb:125-130 | the lookup appends the term's entry to the current bucket, or its warning, keeping every entry filed under its own letter |
| IndexBuilder.StepKeepsInv | utilities/build-tools/index.rb:104-131 | one iteration on a foldable term keeps the loop invariant |
| IndexBuilder.Run | utilities/build-tools/index.rb:104-131 | the loop completes exactly when every term has a non-empty fold |
| IndexBuilder.RunStopsAtFirst | utilities/build-tools/index.rb:104-107 | at the first term with an empty fold the loop stops, carrying the warnings of the terms before it |
| IndexBuilder.RunKeepsInv | utilities/build-tools/index.rb:104-131 | after any foldable prefix the state matches the reference definitions |
| IndexBuilder.Normalize | utilities/build-tools/index.rb:100 | the per-term step of the `map` (applied to each term by `NormalizeAll`): the normal form is empty exactly when the term is all blanks, never ends with a blank, and is the stripped term when that holds no ": "; through `RemoveColonSpace` every ": " of the stripped term is deleted (`RubyString.RemoveColonSpaceCut`) |
| IndexBuilder.NormalizeAllFixed | utilities/build-tools/index.rb:100 | a list whose terms the per-term strip and ": " removal leave alone comes through the list normalisation unchanged |
| IndexBuilder.NormalizeAllSpace | utilities/build-tools/index.rb:100 | the normal form consists of separators only exactly when the term is all blanks |
| IndexBuilder.Build | utilities/build-tools/index.rb:97-134 | the build succeeds exactly when every normalised term has a non-empty fold |
| IndexBuilder.BuildFails | utilities/build-tools/index.rb:100-107 | the build raises exactly when some authored term is blank, so that `strip` empties it |
| IndexBuilder.BuildStopsAtFirstBlank | utilities/build-tools/index.rb:100-107 | at the first blank term the build fails with the warnings already printed for the unmapped terms before it |
| IndexBuilder.BuildMeaning | utilities/build-tools/index.rb:97-134 | when no normalised term is blank the build succeeds, and its used letters equal the bucket letters and the filing letters with repeats dropped; entries, bucket by bucket, are the mapped terms in order with their links; every entry lies in its letter's bucket; one warning per unmapped term, in order |
| IndexBuilder.RunKeepsGrouped | utilities/build-tools/index.rb:104-131 | after any foldable prefix, bucket i has the letter of the i-th run of equal filing letters, and the buckets up to i hold the mapped terms up to the end of that run |
| IndexBuilder.BuildBuckets | utilities/build-tools/index.rb:97-134 | on a successful build, bucket i is headed by the letter starting the i-th run of equal filing letters and holds exactly the mapped terms of that run, in order |
| IndexBuilder.BuildUsedLettersNoRepeats | utilities/build-tools/index.rb:114-118 | on a successful build there are at most as many used letters as terms, none for an empty list, and no letter follows itself |
| IndexBuilder.BuildUsedLettersDistinct | utilities/build-tools/index.rb:114-118 | when the collation keeps each letter's terms together, no letter is used twice |
| IndexBuilder.MappedInOrder | utilities/build-tools/index.rb:125-130 | item k is the folded term at the k-th mapped position with that term's links |
| IndexBuilder.UnmappedInOrder | utilities/build-tools/index.rb:125-127 | warning k names the folded term at the k-th unmapped position |
| IndexBuilder.PositionsComplete | utilities/build-tools/index.rb:125-130 | the mapped (or unmapped) positions list every term of that kind, so `MappedInOrder` and `UnmappedInOrder` leave no term out |
| IndexBuilder.ItemsPlusWarnings | utilities/build-tools/index.rb:125-130 | every term gives exactly one item or one warning |
| IndexBuilder.FullMapNoWarnings | utilities/build-tools/index.rb:125-127 | when the map covers every term there is no warning and one item per term |
| IndexBuilder.NavLinksHitBuckets | utilities/build-tools/index.rb:49-57 | on a successful build every navigation link names the letter of some bucket of the built index |
| Scenarios.EmptyVocabulary | utilities/build-tools/index.rb:97-134 | an empty list gives no buckets, used letters or warnings |
| Scenarios.UnmappedTermOpensLetter | utilities/build-tools/index.rb:114-127 | an unmapped "Zebra" still opens an empty z section, marks z used and warns about "zebra" |
| Scenarios.LookupByAuthoredTerm | utilities/build-tools/index.rb:125-129 | the map is keyed by "Zebra", not by its fold "zebra" |
| Scenarios.SpanishSeparatesEnye | utilities/build-tools/index.rb:41-47 | in Spanish "niño" and "ñandú" fall under n and ñ |
| Scenarios.EnglishMergesEnye | utilities/build-tools/index.rb:109-112 | in English, with ñ approximated by n, both fall under n |
| Scenarios.IndiceFiledUnderI | utilities/build-tools/index.rb:109-112 | "Índice" is listed as "índice" under i |
| Scenarios.RecurringLetter | utilities/build-tools/index.rb:114-130 | three terms with letters x, y, x give three sections, one term each; the third term does not rejoin the first section |
| Scenarios.BlankTermFails | utilities/build-tools/index.rb:106-107 | a list containing a blank term stops with an error |
| Scenarios.AcronymGloss | utilities/build-tools/index.rb:179-203 | "API (Application Programming Interface)" satisfies `keep_Capitalized?` but is listed as "API (application programming interface)" |

## Left out

- Collation (`localize(@language).sort` with TwitterCldr): the term list is an input, already in collation order.
- `I18n.transliterate`: a table from characters to approximations is an input. `Filing.LatinApproximations` gives the lower-case Latin-1 part of the default rules. The library's locale-specific rule files are not modelled.
- Transliterate: requires every table entry to be non-empty. An empty replacement would give an empty filing letter, which the loop's `prev_letter = ''` start would mistake for a previous letter.
- Lower: covers ASCII and the Latin-1 Supplement only. Ruby's `downcase` also folds upper-case letters of other scripts (Latin Extended, Greek, Cyrillic, …), which the model leaves unchanged.
- `castCharToEng`: never called by the generator, so not modelled.
- HTML text: the markup of `generate_html_list`, `alphabet_index_links`, `html_document` and `write_html_head`. The model returns the buckets, used letters and warnings as data, and the navigation bar as link/plain items.
- File output and `main`, `write_index_file`, Nokogiri and HtmlBeautifier: I/O and formatting libraries.
- `puts` of the warning: modelled as a `Warning` value appended to the index. When the build stops at a blank term, the warnings already printed travel in the error value.
- `language_ext`, `index_filename`, `vocabList` and `initialize`: plain accessors with no logic to prove.
- Each link list is kept as the map's sequence of links. Its `join(', ')` into one string is left to the HTML text.

=== FILE: case_fold.dfy ===
/**
 Case classification of vocabulary terms: the first-byte tests `capital?`,
 `lowercase?` and `non_alpha_char?`, the acronym/gloss test
 `keep_Capitalized?`, and the word-by-word case fold `index_downcase`.
 */
module CaseFold {
  import opened Results
  import opened RubyString

  /** `CAPITALS`: words (and one phrase) kept in their authored case. */
  const Capitals: seq<string> := ["IP", "DDoS", "SSL", "TLS", "TCP", "IA", "IPA", "PCT", "PI", "AI", "ADT", "API",
                                  "Creative Commons", "ISPs", "Commons", "Creative", "Boolean", "Booleano"]

  /** `capital?(char)`: is the first byte in 65..90? `None` when there is no first byte (Ruby raises). */
  function Capital(s: string): (r: Option<bool>)
    ensures r.None? <==> s == []
    ensures r == Some(true) <==> s != [] && 'A' <= s[0] <= 'Z'
  {
    if s == [] then None else Some(65 <= LeadByte(s[0]) <= 90)
  }

  /** `lowercase?(char)`: is the first byte in 97..122? `None` when there is no first byte. */
  function Lowercase(s: string): (r: Option<bool>)
    ensures r.None? <==> s == []
    ensures r == Some(true) <==> s != [] && 'a' <= s[0] <= 'z'
  {
    if s == [] then None else Some(97 <= LeadByte(s[0]) <= 122)
  }

  /** `non_alpha_char?(vocab)`: neither test holds of `vocab[0]`. `None` when `vocab` is empty. */
  function NonAlphaChar(v: string): (r: Option<bool>)
    ensures r.None? <==> v == []
    ensures r == Some(true) <==> v != [] && !('A' <= v[0] <= 'Z' || 'a' <= v[0] <= 'z')
    ensures v != [] && v[0] as int >= 128 ==> r == Some(true)
  {
    if v == [] then None
    else
      var first := [v[0]];
      match Capital(first)
      case None => None
      case Some(upper) =>
        if upper then Some(false)
        else
          match Lowercase(first)
          case None => None
          case Some(lower) => Some(!lower)
  }

  /** The regular expression `/\(.+\)/` matches somewhere in `v` (`.` does not match a newline). */
  predicate HasGloss(v: string) {
    exists i, j :: 0 <= i && i + 1 < j < |v| && IsGlossSpan(v, i, j)
  }

  predicate IsGlossSpan(v: string, i: nat, j: nat)
    requires i < j < |v|
  {
    v[i] == '(' && v[j] == ')' && forall k :: i < k < j ==> v[k] != '\n'
  }

  /**
   The states of a left-to-right scan for `/\(.+\)/` on the current line: no
   `(` seen yet, a `(` just seen, or a `(` followed by at least one character.
   */
  datatype GlossScan = Outside | Opened | Inside

  function GlossNext(st: GlossScan, c: char): GlossScan {
    if c == '\n' then Outside
    else
      match st
      case Outside => if c == '(' then Opened else Outside
      case Opened => Inside
      case Inside => Inside
  }

  /** The scan accepts at a `)` read in state `Inside`. */
  function ScanGloss(v: string, st: GlossScan): bool
    decreases |v|
  {
    if v == [] then false
    else if st == Inside && v[0] == ')' then true
    else ScanGloss(v[1..], GlossNext(st, v[0]))
  }

  /** A shortest text that leaves the scan in state `st`. */
  function Seen(st: GlossScan): string {
    match st
    case Outside => ""
    case Opened => "("
    case Inside => "(x"
  }

  /** A gloss that starts at index `m` or later. */
  predicate GlossFrom(s: string, m: nat) {
    exists i, j :: m <= i && i + 1 < j < |s| && IsGlossSpan(s, i, j)
  }

  /** Glosses in `v` are the glosses of `a + v` that start after `a`. */
  lemma GlossShift(a: string, v: string, m: nat)
    ensures GlossFrom(a + v, |a| + m) <==> GlossFrom(v, m)
  {
    var s := a + v;
    if GlossFrom(s, |a| + m) {
      var i, j :| |a| + m <= i && i + 1 < j < |s| && IsGlossSpan(s, i, j);
      forall k | i - |a| < k < j - |a|
        ensures v[k] != '\n'
      {
        assert v[k] == s[k + |a|];
      }
      assert IsGlossSpan(v, i - |a|, j - |a|);
    }
    if GlossFrom(v, m) {
      var i, j :| m <= i && i + 1 < j < |v| && IsGlossSpan(v, i, j);
      forall k | i + |a| < k < j + |a|
        ensures s[k] != '\n'
      {
        assert s[k] == v[k - |a|];
      }
      assert IsGlossSpan(s, i + |a|, j + |a|);
    }
  }

  /** None of the texts standing for a scan state holds a gloss. */
  lemma SeenNoGloss(st: GlossScan)
    ensures !HasGloss(Seen(st))
    ensures forall k :: 0 <= k < |Seen(st)| ==> Seen(st)[k] != ')' && Seen(st)[k] != '\n'
  {
  }

  /** A newline ends every gloss that started before it. */
  lemma GlossNewline(p: string, v: string)
    requires forall k :: 0 <= k < |p| ==> p[k] != ')'
    ensures HasGloss(p + "\n" + v) <==> HasGloss(v)
  {
    var s := p + "\n" + v;
    GlossShift(p + "\n", v, 0);
    if HasGloss(s) {
      var i, j :| 0 <= i && i + 1 < j < |s| && IsGlossSpan(s, i, j);
      assert s[|p|] == '\n';
      assert |p| + 1 <= i;
    }
  }

  /** A character other than `(` cannot start a gloss. */
  lemma GlossSkip(c: char, v: string)
    requires c != '('
    ensures HasGloss([c] + v) <==> HasGloss(v)
  {
    GlossShift([c], v, 0);
  }

  /** After `(`, any character but a newline leaves the same glosses ahead as `x` would. */
  lemma GlossOpened(c: char, v: string)
    requires c != '\n'
    ensures HasGloss("(" + [c] + v) <==> HasGloss("(x" + v)
  {
    var s1 := "(" + [c] + v;
    var s2 := "(x" + v;
    assert |s1| == |s2| && s1[0] == s2[0] == '(' && s2[1] == 'x';
    assert forall k :: 2 <= k < |s1| ==> s1[k] == s2[k];
    if HasGloss(s1) {
      var i, j :| 0 <= i && i + 1 < j < |s1| && IsGlossSpan(s1, i, j);
      var i2 := if i == 1 then 0 else i;
      assert IsGlossSpan(s2, i2, j);
    }
    if HasGloss(s2) {
      var i, j :| 0 <= i && i + 1 < j < |s2| && IsGlossSpan(s2, i, j);
      assert IsGlossSpan(s1, i, j);
    }
  }

  /** Inside a parenthesis, a character other than `)` or a newline changes no gloss ahead. */
  lemma GlossInside(c: char, v: string)
    requires c != '\n' && c != ')'
    ensures HasGloss("(x" + [c] + v) <==> HasGloss("(x" + v)
  {
    var s1 := "(x" + [c] + v;
    var s2 := "(x" + v;
    assert |s1| == |s2| + 1 && s1[0] == s2[0] == '(' && s1[1] == s2[1] == 'x' && s1[2] == c;
    assert forall k :: 2 <= k < |s2| ==> s1[k + 1] == s2[k];
    if HasGloss(s1) {
      var i, j :| 0 <= i && i + 1 < j < |s1| && IsGlossSpan(s1, i, j);
      var i2 := if i <= 2 then 0 else i - 1;
      forall k | i2 < k < j - 1
        ensures s2[k] != '\n'
      {
        if k >= 2 {
          assert s2[k] == s1[k + 1];
        }
      }
      assert IsGlossSpan(s2, i2, j - 1);
    }
    if HasGloss(s2) {
      var i, j :| 0 <= i && i + 1 < j < |s2| && IsGlossSpan(s2, i, j);
      var i1 := if i == 0 then 0 else i + 1;
      forall k | i1 < k < j + 1
        ensures s1[k] != '\n'
      {
        if k >= 3 {
          assert s1[k] == s2[k - 1];
        }
      }
      assert IsGlossSpan(s1, i1, j + 1);
    }
  }

  /** One character of the scan: accept, or go on from the next state. */
  lemma GlossStep(st: GlossScan, c: char, rest: string)
    ensures HasGloss(Seen(st) + ([c] + rest)) <==>
      (st == Inside && c == ')') || HasGloss(Seen(GlossNext(st, c)) + rest)
  {
    var s := Seen(st) + ([c] + rest);
    SeenNoGloss(st);
    if c == '\n' {
      GlossNewline(Seen(st), rest);
      assert s == Seen(st) + "\n" + rest;
      assert Seen(Outside) + rest == rest;
    } else if st == Inside && c == ')' {
      assert IsGlossSpan(s, 0, 2);
    } else {
      match st
      case Outside =>
        if c == '(' {
          assert s == "(" + rest;
        } else {
          GlossSkip(c, rest);
          assert s == [c] + rest;
          assert Seen(Outside) + rest == rest;
        }
      case Opened =>
        GlossOpened(c, rest);
        assert s == "(" + [c] + rest;
      case Inside =>
        GlossInside(c, rest);
        assert s == "(x" + [c] + rest;
    }
  }

  /** The scan from state `st` accepts exactly when the text `st` stands for, followed by `v`, holds a gloss. */
  lemma {:induction false} ScanGlossMeaning(v: string, st: GlossScan)
    ensures ScanGloss(v, st) <==> HasGloss(Seen(st) + v)
    decreases |v|
  {
    if v == [] {
      SeenNoGloss(st);
      assert Seen(st) + v == Seen(st);
    } else {
      var c, rest := v[0], v[1..];
      assert v == [c] + rest;
      ScanGlossMeaning(rest, GlossNext(st, c));
      GlossStep(st, c, rest);
    }
  }

  /** The one-pass scan decides the gloss test: it is an independent account of `/\(.+\)/`. */
  lemma HasGlossScan(v: string)
    ensures HasGloss(v) <==> ScanGloss(v, Outside)
  {
    ScanGlossMeaning(v, Outside);
    assert Seen(Outside) + v == v;
  }

  /** The loop of `keep_Capitalized?` over the remaining `items`. */
  function KeepCapitalizedFrom(v: string, items: seq<string>): bool {
    if items == [] then false
    else if Contains(v, items[0]) then true
    else if HasGloss(v) then true
    else KeepCapitalizedFrom(v, items[1..])
  }

  /** `keep_Capitalized?(vocab)`: a `CAPITALS` entry is a substring, or a parenthesised gloss is present. */
  function KeepCapitalized(v: string): (r: bool)
    ensures r <==> (exists item :: item in Capitals && Contains(v, item)) || HasGloss(v)
  {
    KeepCapitalizedFromMeaning(v, Capitals);
    CapitalsIndexed(v);
    KeepCapitalizedFrom(v, Capitals)
  }

  /** Some entry of `CAPITALS` occurs in `v` exactly when the entry at some index does. */
  lemma CapitalsIndexed(v: string)
    ensures (exists n :: 0 <= n < |Capitals| && Contains(v, Capitals[n])) <==> (exists item :: item in Capitals && Contains(v, item))
  {
    if exists item :: item in Capitals && Contains(v, item) {
      var item :| item in Capitals && Contains(v, item);
      var n :| 0 <= n < |Capitals| && Capitals[n] == item;
    }
  }

  /** The loop amounts to: some item occurs as a substring, or (for a non-empty list) a gloss is present. */
  lemma {:induction false} KeepCapitalizedFromMeaning(v: string, items: seq<string>)
    ensures KeepCapitalizedFrom(v, items) <==>
      (exists n :: 0 <= n < |items| && Contains(v, items[n])) || (items != [] && HasGloss(v))
  {
    if items != [] && !Contains(v, items[0]) && !HasGloss(v) {
      KeepCapitalizedFromMeaning(v, items[1..]);
      if exists n :: 0 <= n < |items| && Contains(v, items[n]) {
        var n :| 0 <= n < |items| && Contains(v, items[n]);
        assert n != 0 && items[1..][n - 1] == items[n];
      }
      if exists n :: 0 <= n < |items[1..]| && Contains(v, items[1..][n]) {
        var n :| 0 <= n < |items[1..]| && Contains(v, items[1..][n]);
        assert items[n + 1] == items[1..][n];
      }
    }
  }

  /** Every `CAPITALS` entry starts with an upper-case ASCII letter and has 2, 3, 4, 7, 8 or 16 characters. */
  lemma CapitalsShape()
    ensures forall i :: 0 <= i < |Capitals| ==> Capitals[i] != [] && 'A' <= Capitals[i][0] <= 'Z'
    ensures forall i :: 0 <= i < |Capitals| ==> |Capitals[i]| in {2, 3, 4, 7, 8, 16}
  {
  }

  /** A word that does not start with an upper-case ASCII letter, or has a length no entry has, is not in `CAPITALS`. */
  lemma NotCapital(w: string)
    requires (w != [] && !('A' <= w[0] <= 'Z')) || |w| !in {2, 3, 4, 7, 8, 16}
    ensures w !in Capitals
  {
    CapitalsShape();
  }

  /** One word of `index_downcase`: kept if it is in `CAPITALS`, otherwise downcased. */
  function FoldWord(w: string): (r: string)
    ensures |r| == |w|
    ensures IsWord(w) ==> IsWord(r)
    ensures r == w || r == Downcase(w)
    ensures w !in Capitals ==> forall k :: 0 <= k < |r| ==> !IsUpperLatin(r[k])
  {
    if w in Capitals then w else Downcase(w)
  }

  function FoldWords(ws: seq<string>): (r: seq<string>)
    ensures |r| == |ws|
    ensures forall i :: 0 <= i < |ws| ==> r[i] == FoldWord(ws[i])
  {
    seq(|ws|, i requires 0 <= i < |ws| => FoldWord(ws[i]))
  }

  /**
   `index_downcase(vocab)`: split on whitespace, fold each word, join with
   single spaces. Splitting the result again gives the folded words, and the
   result is already squeezed: no separator at either end and single spaces
   between words.
   */
  function IndexDowncase(v: string): (r: string)
    ensures Words(r) == FoldWords(Words(v))
    ensures Squeeze(r) == r
  {
    WordsJoin(FoldWords(Words(v)));
    WordsSqueeze(Join(FoldWords(Words(v))));
    Join(FoldWords(Words(v)))
  }

  /** The fold keeps the words: same number, each kept if in `CAPITALS` and downcased otherwise. */
  lemma IndexDowncaseWords(v: string)
    ensures Words(IndexDowncase(v)) == FoldWords(Words(v))
    ensures |Words(IndexDowncase(v))| == |Words(v)|
    ensures forall i :: 0 <= i < |Words(v)| ==>
      Words(IndexDowncase(v))[i] == (if Words(v)[i] in Capitals then Words(v)[i] else Downcase(Words(v)[i]))
  {
    WordsJoin(FoldWords(Words(v)));
  }

  /** A folded word folds to itself. */
  lemma FoldWordIdempotent(w: string)
    ensures FoldWord(FoldWord(w)) == FoldWord(w)
  {
    if w !in Capitals && Downcase(w) !in Capitals {
      assert Downcase(Downcase(w)) == Downcase(w);
    }
  }

  /** Applying `index_downcase` twice is the same as applying it once. */
  lemma IndexDowncaseIdempotent(v: string)
    ensures IndexDowncase(IndexDowncase(v)) == IndexDowncase(v)
  {
    var ws := FoldWords(Words(v));
    IndexDowncaseWords(v);
    forall i | 0 <= i < |ws|
      ensures FoldWords(ws)[i] == ws[i]
    {
      FoldWordIdempotent(Words(v)[i]);
    }
    assert FoldWords(ws) == ws;
  }

  /** The fold is empty exactly when the term holds nothing but whitespace. */
  lemma IndexDowncaseEmpty(v: string)
    ensures IndexDowncase(v) == [] <==> forall k :: 0 <= k < |v| ==> IsSpace(v[k])
  {
    WordsEmpty(v);
    JoinEmpty(FoldWords(Words(v)));
  }

  /** A folded word starts with the word's first character, up to case. */
  lemma FoldWordFirst(w: string)
    requires w != []
    ensures FoldWord(w) != [] && Lower(FoldWord(w)[0]) == Lower(w[0])
  {
    LowerIdempotent(w[0]);
  }

  /** The folded term starts with the term's first non-blank character, up to case. */
  lemma IndexDowncaseFirst(v: string)
    requires IndexDowncase(v) != []
    ensures CountLeading(v, IsSpace) < |v|
    ensures Lower(IndexDowncase(v)[0]) == Lower(v[CountLeading(v, IsSpace)])
  {
    var ws := Words(v);
    assert ws != [];
    var fs := FoldWords(ws);
    WordsFirst(v);
    FoldWordFirst(ws[0]);
    assert fs[0] == FoldWord(ws[0]);
    JoinFirst(fs);
  }

  /** "Creative Commons" holds a space, so no single word ever equals it: that entry never applies. */
  lemma CreativeCommonsNeverAWord(v: string)
    ensures "Creative Commons" !in Words(v)
  {
    var ws := Words(v);
    if "Creative Commons" in ws {
      var i :| 0 <= i < |ws| && ws[i] == "Creative Commons";
      assert IsSpace(ws[i][8]);
    }
  }
}

=== FILE: filing.dfy ===
/**
 The filing letter of a term: the downcased first character of its case-folded
 form, kept when the locale alphabet has it and transliterated otherwise.
 */
module Filing {
  import opened RubyString
  import opened Locale
  import opened CaseFold

  /**
   The transliteration table `I18n.transliterate` consults for non-ASCII
   characters (the library's approximation rules).
   */
  type Approximations = map<char, string>

  /** Every table entry has a replacement text. */
  predicate WellFormed(table: Approximations) {
    forall c :: c in table ==> table[c] != []
  }

  /** `I18n.transliterate` of a one-character string: ASCII is kept, anything else is looked up, "?" when absent. */
  function Transliterate(table: Approximations, c: char): (r: string)
    requires WellFormed(table)
    ensures r != []
    ensures c as int < 128 ==> r == [c]
    ensures c as int >= 128 && c in table ==> r == table[c]
    ensures c as int >= 128 && c !in table ==> r == "?"
  {
    if c as int < 128 then [c] else if c in table then table[c] else "?"
  }

  /** The lower-case Latin-1 part of I18n's default approximations. */
  const LatinApproximations: Approximations := map[
    'à' := "a", 'á' := "a", 'â' := "a", 'ã' := "a", 'ä' := "a", 'å' := "a", 'æ' := "ae",
    'ç' := "c", 'è' := "e", 'é' := "e", 'ê' := "e", 'ë' := "e",
    'ì' := "i", 'í' := "i", 'î' := "i", 'ï' := "i", 'ð' := "d", 'ñ' := "n",
    'ò' := "o", 'ó' := "o", 'ô' := "o", 'õ' := "o", 'ö' := "o", 'ø' := "o",
    'ù' := "u", 'ú' := "u", 'û' := "u", 'ü' := "u", 'ý' := "y", 'þ' := "th", 'ÿ' := "y", 'ß' := "ss"]

  /** The filing letter of a leading character `c` (already downcased). */
  function CharLetter(c: char, alphabet: string, table: Approximations): (r: string)
    requires WellFormed(table)
    requires forall k :: 0 <= k < |alphabet| ==> !IsUpperLatin(alphabet[k])
    ensures r != []
    ensures c in alphabet ==> r == [c]
    ensures c !in alphabet && c as int < 128 ==> r == [Lower(c)]
    ensures c !in alphabet && c as int >= 128 && c in table ==> r == Downcase(table[c])
    ensures c !in alphabet && c as int >= 128 && c !in table ==> r == "?"
    ensures forall k :: 0 <= k < |r| ==> !IsUpperLatin(r[k])
  {
    if c in alphabet then [c] else Downcase(Transliterate(table, c))
  }

  /** The filing letter of a case-folded term: its first character, downcased, transliterated when the alphabet lacks it. */
  function FilingLetter(folded: string, alphabet: string, table: Approximations): (r: string)
    requires folded != []
    requires WellFormed(table)
    requires forall k :: 0 <= k < |alphabet| ==> !IsUpperLatin(alphabet[k])
    ensures r != []
    ensures Downcase(r) == r
    ensures Lower(folded[0]) in alphabet ==> r == [Lower(folded[0])]
    ensures Lower(folded[0]) !in alphabet && folded[0] as int < 128 ==> r == [Lower(folded[0])]
    ensures Lower(folded[0]) !in alphabet && folded[0] as int >= 128 && Lower(folded[0]) in table ==>
      r == Downcase(table[Lower(folded[0])])
    ensures Lower(folded[0]) !in alphabet && folded[0] as int >= 128 && Lower(folded[0]) !in table ==> r == "?"
  {
    var r := CharLetter(Lower(folded[0]), alphabet, table);
    assert Downcase(r) == r;
    r
  }

  /** The filing letter of a normalised term in a language: that of its `index_downcase` form. */
  function TermLetter(v: string, language: string, table: Approximations): (r: string)
    requires IndexDowncase(v) != []
    requires WellFormed(table)
    ensures r != []
    ensures forall k :: 0 <= k < |r| ==> !IsUpperLatin(r[k])
  {
    FilingLetter(IndexDowncase(v), Alphabet(language), table)
  }

  /** A term is filed by its first non-blank character alone, downcased. */
  lemma TermLetterByFirstChar(v: string, language: string, table: Approximations)
    requires IndexDowncase(v) != []
    requires WellFormed(table)
    ensures CountLeading(v, IsSpace) < |v|
    ensures TermLetter(v, language, table) == CharLetter(Lower(v[CountLeading(v, IsSpace)]), Alphabet(language), table)
  {
    IndexDowncaseFirst(v);
  }

  /** A term whose first letter is in the alphabet (in either case) is filed under that letter. */
  lemma TermLetterInAlphabet(v: string, language: string, table: Approximations)
    requires IndexDowncase(v) != []
    requires WellFormed(table)
    requires CountLeading(v, IsSpace) < |v| && Lower(v[CountLeading(v, IsSpace)]) in Alphabet(language)
    ensures |TermLetter(v, language, table)| == 1
    ensures TermLetter(v, language, table)[0] in Alphabet(language)
  {
    TermLetterByFirstChar(v, language, table);
  }

  /** The Latin-1 table maps non-ASCII characters to ASCII lower-case letters. */
  lemma LatinApproximationsAscii()
    ensures WellFormed(LatinApproximations)
    ensures forall c :: c in LatinApproximations ==> c as int >= 128
    ensures forall c :: c in LatinApproximations ==>
      forall k :: 0 <= k < |LatinApproximations[c]| ==> 'a' <= LatinApproximations[c][k] <= 'z'
  {
  }

  /** A non-ASCII character approximated by one ASCII lower-case letter is filed under a letter of every alphabet. */
  lemma ApproximationFilesInAlphabet(c: char, language: string, table: Approximations)
    requires WellFormed(table)
    requires c as int >= 128 && c in table && |table[c]| == 1 && 'a' <= table[c][0] <= 'z'
    ensures |CharLetter(c, Alphabet(language), table)| == 1
    ensures CharLetter(c, Alphabet(language), table)[0] in Alphabet(language)
  {
    LatinCodes();
    var a := Alphabet(language);
    if c !in a {
      var t := table[c];
      assert Transliterate(table, c) == t;
      assert Lower(t[0]) == t[0];
      var i := t[0] as int - 'a' as int;
      if language == "es" {
        SpanishShape();
        if i < 14 {
          assert a[i] == t[0];
        } else {
          assert a[i + 1] == t[0];
        }
      } else {
        assert a[i] == t[0];
      }
    }
  }

  /**
   With the Latin-1 table, an accented lower-case letter whose approximation is a
   single letter is filed under a letter of every alphabet.
   */
  lemma LatinAccentsFileInAlphabet(c: char, language: string)
    requires c in LatinApproximations && |LatinApproximations[c]| == 1
    ensures |CharLetter(c, Alphabet(language), LatinApproximations)| == 1
    ensures CharLetter(c, Alphabet(language), LatinApproximations)[0] in Alphabet(language)
  {
    LatinApproximationsAscii();
    ApproximationFilesInAlphabet(c, language, LatinApproximations);
  }
}

=== FILE: index_builder.dfy ===
/**
 The bucketing loop of `generate_html_list`, as a left fold over the collated
 term list that yields letter buckets, the used letters and the warnings
 instead of HTML text.
 */
module IndexBuilder {
  import opened Results
  import opened RubyString
  import opened Locale
  import opened CaseFold
  import opened Filing

  /** One list item: the case-folded term and its links. */
  datatype Entry = Entry(display: string, links: seq<string>)

  /** One letter section: its header letter and its items, in input order. */
  datatype Bucket = Bucket(letter: string, entries: seq<Entry>)

  /** The console warning for a term the link map lacks; it names the case-folded term. */
  datatype Warning = NoUrlMapping(word: string)

  /**
   Ruby's `NoMethodError` from `vocab[0].downcase` when the folded term is
   empty, with the warnings the earlier terms had already printed.
   */
  datatype BuildError = NoFirstCharacter(warned: seq<Warning>)

  datatype Index = Index(buckets: seq<Bucket>, usedLetters: seq<string>, warnings: seq<Warning>)

  /** `@vocab_url_map`: exact normalised term to its links. */
  type LinkMap = map<string, seq<string>>

  /** The loop state: the index built so far and `prev_letter`. */
  datatype State = State(index: Index, prevLetter: string)

  const Start: State := State(Index([], [], []), "")

  /** The per-term normalisation of `generate_html_list`: `strip`, then remove every ": ". */
  function Normalize(w: string): (r: string)
    ensures r == [] <==> AllBlank(w)
    ensures r != [] ==> !IsBlank(r[|r| - 1])
    ensures !HasColonSpace(Strip(w)) ==> r == Strip(w)
  {
    RemoveColonSpaceIdentity(Strip(w));
    RemoveColonSpace(Strip(w))
  }

  /** A term without surrounding blanks and without a colon is its own normal form. */
  lemma NormalizePlain(t: string)
    requires t != [] && !IsBlank(t[0]) && !IsBlank(t[|t| - 1])
    requires forall k :: 0 <= k < |t| ==> t[k] != ':'
    ensures Normalize(t) == t
  {
    assert Strip(t) == t;
  }

  /** Terms that are already normalised pass through NormalizeAll unchanged. */
  lemma NormalizeAllFixed(vs: seq<string>)
    requires forall i :: 0 <= i < |vs| ==> Normalize(vs[i]) == vs[i]
    ensures NormalizeAll(vs) == vs
  {
    var n := NormalizeAll(vs);
    assert forall i :: 0 <= i < |vs| ==> n[i] == vs[i];
  }

  /** A normalised term is made of separators only exactly when the authored term is made of blanks only. */
  lemma NormalizeAllSpace(w: string)
    ensures (forall k :: 0 <= k < |Normalize(w)| ==> IsSpace(Normalize(w)[k])) <==> AllBlank(w)
  {
    var r := Normalize(w);
    if r != [] {
      assert !IsSpace(r[|r| - 1]);
    }
  }

  /** A term that `index_downcase` leaves non-empty, so that `vocab[0]` exists. */
  predicate Foldable(v: string) {
    IndexDowncase(v) != []
  }

  predicate AllFoldable(vs: seq<string>) {
    forall i :: 0 <= i < |vs| ==> Foldable(vs[i])
  }

  /** Open a new bucket, and record its letter as used, when the letter changes. */
  function Open(st: State, letter: string): (r: State)
    ensures r.prevLetter == letter
    ensures r.index.warnings == st.index.warnings
  {
    if st.prevLetter != letter then
      var ix := st.index;
      State(Index(ix.buckets + [Bucket(letter, [])], ix.usedLetters + [letter], ix.warnings), letter)
    else st
  }

  /** The buckets with `e` appended to the entries of the last one. */
  function AddToLast(bs: seq<Bucket>, e: Entry): (r: seq<Bucket>)
    requires bs != []
    ensures |r| == |bs|
    ensures forall i :: 0 <= i < |bs| - 1 ==> r[i] == bs[i]
    ensures r[|r| - 1].letter == bs[|bs| - 1].letter
    ensures r[|r| - 1].entries == bs[|bs| - 1].entries + [e]
  {
    var last := bs[|bs| - 1];
    bs[..|bs| - 1] + [Bucket(last.letter, last.entries + [e])]
  }

  /** Warn about an unmapped term, or add its entry to the current bucket. */
  function Lookup(st: State, vocab: string, folded: string, links: LinkMap): (r: State)
    ensures r.prevLetter == st.prevLetter
    ensures r.index.usedLetters == st.index.usedLetters
  {
    var ix := st.index;
    if vocab !in links then
      State(Index(ix.buckets, ix.usedLetters, ix.warnings + [NoUrlMapping(folded)]), st.prevLetter)
    else if ix.buckets == [] then
      // Unreachable from `Start`: a filing letter is never empty, so the first term opens a bucket.
      st
    else
      State(Index(AddToLast(ix.buckets, Entry(folded, links[vocab])), ix.usedLetters, ix.warnings), st.prevLetter)
  }

  /** One iteration of `terms.each`. */
  function Step(st: State, vocab: string, links: LinkMap, language: string, table: Approximations): (r: Result<State, BuildError>)
    requires WellFormed(table)
    ensures r.Failure? <==> !Foldable(vocab)
  {
    var folded := IndexDowncase(vocab);
    if folded == [] then Failure(NoFirstCharacter(st.index.warnings))
    else
      var letter := FilingLetter(folded, Alphabet(language), table);
      Success(Lookup(Open(st, letter), vocab, folded, links))
  }

  /** The loop over `terms`, as a left fold: the state after the last term is a step from the state before it. */
  function Run(terms: seq<string>, links: LinkMap, language: string, table: Approximations): (r: Result<State, BuildError>)
    requires WellFormed(table)
    ensures r.Success? <==> AllFoldable(terms)
  {
    if terms == [] then Success(Start)
    else
      AllFoldableInitLast(terms);
      match Run(terms[..|terms| - 1], links, language, table)
      case Failure(e) => Failure(e)
      case Success(st) => Step(st, terms[|terms| - 1], links, language, table)
  }

  /** The normalisation applied to every term of the collated list. */
  function NormalizeAll(sorted: seq<string>): (r: seq<string>)
    ensures |r| == |sorted|
    ensures forall i :: 0 <= i < |sorted| ==> r[i] == Normalize(sorted[i])
  {
    seq(|sorted|, i requires 0 <= i < |sorted| => Normalize(sorted[i]))
  }

  /** `generate_html_list` over an already collated term list, as a structure. */
  function Build(sorted: seq<string>, links: LinkMap, language: string, table: Approximations): (r: Result<Index, BuildError>)
    requires WellFormed(table)
    ensures r.Success? <==> AllFoldable(NormalizeAll(sorted))
  {
    match Run(NormalizeAll(sorted), links, language, table)
    case Failure(e) => Failure(e)
    case Success(st) => Success(st.index)
  }

  // ---------------------------------------------------------------------------
  // Reference definitions, each stated over the processed prefix of the terms.

  /** The filing letter of a term; empty for a term the build stops at. */
  function LetterOf(v: string, language: string, table: Approximations): string
    requires WellFormed(table)
  {
    if Foldable(v) then TermLetter(v, language, table) else []
  }

  /** The filing letter of every term, in order. */
  function Letters(vs: seq<string>, language: string, table: Approximations): (r: seq<string>)
    requires WellFormed(table)
    ensures |r| == |vs|
  {
    if vs == [] then []
    else Letters(vs[..|vs| - 1], language, table) + [LetterOf(vs[|vs| - 1], language, table)]
  }

  /** A sequence with every run of equal neighbours reduced to one element. */
  function Compress(xs: seq<string>): seq<string> {
    if |xs| <= 1 then xs
    else if xs[|xs| - 2] == xs[|xs| - 1] then Compress(xs[..|xs| - 1])
    else Compress(xs[..|xs| - 1]) + [xs[|xs| - 1]]
  }

  /** The entries of the mapped terms, in input order. */
  function Mapped(vs: seq<string>, links: LinkMap): seq<Entry> {
    if vs == [] then []
    else
      var v := vs[|vs| - 1];
      Mapped(vs[..|vs| - 1], links) + (if v in links then [Entry(IndexDowncase(v), links[v])] else [])
  }

  /** One warning per unmapped term, in input order. */
  function Unmapped(vs: seq<string>, links: LinkMap): seq<Warning> {
    if vs == [] then []
    else
      var v := vs[|vs| - 1];
      Unmapped(vs[..|vs| - 1], links) + (if v in links then [] else [NoUrlMapping(IndexDowncase(v))])
  }

  /** All entries of all buckets, in bucket order. */
  function Flatten(bs: seq<Bucket>): seq<Entry> {
    if bs == [] then [] else Flatten(bs[..|bs| - 1]) + bs[|bs| - 1].entries
  }

  function BucketLetters(bs: seq<Bucket>): (r: seq<string>)
    ensures |r| == |bs|
    ensures forall i :: 0 <= i < |bs| ==> r[i] == bs[i].letter
  {
    seq(|bs|, i requires 0 <= i < |bs| => bs[i].letter)
  }

  /** Every entry sits in the bucket of its own filing letter. */
  predicate Filed(bs: seq<Bucket>, language: string, table: Approximations)
    requires WellFormed(table)
  {
    forall i, j :: 0 <= i < |bs| && 0 <= j < |bs[i].entries| ==>
      bs[i].entries[j].display != [] &&
      FilingLetter(bs[i].entries[j].display, Alphabet(language), table) == bs[i].letter
  }

  /** The bucket headers of the loop state agree with the filing letters `ls` seen so far. */
  predicate Headers(st: State, ls: seq<string>, language: string, table: Approximations)
    requires WellFormed(table)
  {
    var ix := st.index;
    && ix.usedLetters == BucketLetters(ix.buckets)
    && ix.usedLetters == Compress(ls)
    && st.prevLetter == (if ls == [] then "" else ls[|ls| - 1])
    && Filed(ix.buckets, language, table)
  }

  /** The items and warnings of the loop state are those of the terms `done`. */
  predicate Contents(ix: Index, done: seq<string>, links: LinkMap) {
    && Flatten(ix.buckets) == Mapped(done, links)
    && ix.warnings == Unmapped(done, links)
  }

  /** What holds of the loop state after the terms `done`. */
  predicate Inv(st: State, done: seq<string>, links: LinkMap, language: string, table: Approximations)
    requires WellFormed(table)
  {
    Headers(st, Letters(done, language, table), language, table) && Contents(st.index, done, links)
  }

  // ---------------------------------------------------------------------------
  // Lemmas about the reference definitions.

  /** Compressing keeps the last element and is empty only for the empty sequence. */
  lemma {:induction false} CompressLast(xs: seq<string>)
    ensures |Compress(xs)| <= |xs|
    ensures Compress(xs) == [] <==> xs == []
    ensures xs != [] ==> Compress(xs)[|Compress(xs)| - 1] == xs[|xs| - 1]
  {
    if |xs| > 1 {
      CompressLast(xs[..|xs| - 1]);
    }
  }

  /** Neighbouring elements of a compressed sequence differ: no letter is opened twice in a row. */
  lemma {:induction false} CompressNoRepeats(xs: seq<string>)
    ensures forall i :: 0 < i < |Compress(xs)| ==> Compress(xs)[i - 1] != Compress(xs)[i]
  {
    if |xs| > 1 {
      CompressNoRepeats(xs[..|xs| - 1]);
      CompressLast(xs[..|xs| - 1]);
    }
  }

  /** When equal elements are contiguous, compressing leaves no duplicates at all. */
  lemma {:induction false} CompressGroupedDistinct(xs: seq<string>)
    requires forall i, j, k :: 0 <= i < j < k < |xs| && xs[i] == xs[k] ==> xs[j] == xs[i]
    ensures forall i, j :: 0 <= i < j < |Compress(xs)| ==> Compress(xs)[i] != Compress(xs)[j]
  {
    if |xs| > 1 {
      var init := xs[..|xs| - 1];
      CompressGroupedDistinct(init);
      CompressMembers(init);
      if xs[|xs| - 2] != xs[|xs| - 1] {
        var c := Compress(init);
        forall i | 0 <= i < |c|
          ensures c[i] != xs[|xs| - 1]
        {
          var m :| 0 <= m < |init| && init[m] == c[i];
          assert xs[m] == c[i];
        }
      }
    }
  }

  /** Every element of a compressed sequence comes from the original. */
  lemma {:induction false} CompressMembers(xs: seq<string>)
    ensures forall i :: 0 <= i < |Compress(xs)| ==> Compress(xs)[i] in xs
  {
    if |xs| > 1 {
      var init := xs[..|xs| - 1];
      CompressMembers(init);
      assert forall x :: x in init ==> x in xs;
    }
  }

  lemma LettersSnoc(vs: seq<string>, v: string, language: string, table: Approximations)
    requires WellFormed(table)
    requires Foldable(v)
    ensures Letters(vs + [v], language, table) == Letters(vs, language, table) + [TermLetter(v, language, table)]
  {
    assert (vs + [v])[..|vs|] == vs;
  }

  lemma FlattenSnoc(bs: seq<Bucket>, b: Bucket)
    ensures Flatten(bs + [b]) == Flatten(bs) + b.entries
  {
    assert (bs + [b])[..|bs|] == bs;
  }

  // ---------------------------------------------------------------------------
  // The loop invariant.

  lemma InvStart(links: LinkMap, language: string, table: Approximations)
    requires WellFormed(table)
    ensures Inv(Start, [], links, language, table)
  {
  }

  /** Compressing a sequence extended by one element. */
  lemma CompressSnoc(xs: seq<string>, x: string)
    ensures Compress(xs + [x]) == if xs != [] && xs[|xs| - 1] == x then Compress(xs) else Compress(xs) + [x]
  {
    var ys := xs + [x];
    assert ys[..|xs|] == xs;
    if xs == [] {
      assert ys == [x];
    }
  }

  /** An empty bucket can be added without misfiling anything. */
  lemma FiledSnoc(bs: seq<Bucket>, b: Bucket, language: string, table: Approximations)
    requires WellFormed(table)
    requires Filed(bs, language, table)
    requires b.entries == []
    ensures Filed(bs + [b], language, table)
  {
    forall i | 0 <= i < |bs|
      ensures (bs + [b])[i] == bs[i]
    {
    }
  }

  /** Opening a bucket extends the headers by the new letter and leaves the items alone. */
  lemma OpenKeepsHeaders(st: State, ls: seq<string>, letter: string, language: string, table: Approximations)
    requires WellFormed(table)
    requires letter != []
    requires Headers(st, ls, language, table)
    ensures Headers(Open(st, letter), ls + [letter], language, table)
    ensures Flatten(Open(st, letter).index.buckets) == Flatten(st.index.buckets)
    ensures Open(st, letter).index.buckets != []
    ensures Open(st, letter).index.buckets[|Open(st, letter).index.buckets| - 1].letter == letter
  {
    var ls' := ls + [letter];
    CompressSnoc(ls, letter);
    CompressLast(ls);
    var bs := st.index.buckets;
    var r := Open(st, letter);
    if st.prevLetter != letter {
      var b := Bucket(letter, []);
      FlattenSnoc(bs, b);
      assert r.index.buckets == bs + [b];
      assert BucketLetters(bs + [b]) == BucketLetters(bs) + [letter];
      FiledSnoc(bs, b, language, table);
    } else {
      assert ls != [];
    }
  }

  lemma MappedSnoc(vs: seq<string>, v: string, links: LinkMap)
    ensures Mapped(vs + [v], links) == Mapped(vs, links) + (if v in links then [Entry(IndexDowncase(v), links[v])] else [])
  {
    assert (vs + [v])[..|vs|] == vs;
  }

  lemma UnmappedSnoc(vs: seq<string>, v: string, links: LinkMap)
    ensures Unmapped(vs + [v], links) == Unmapped(vs, links) + (if v in links then [] else [NoUrlMapping(IndexDowncase(v))])
  {
    assert (vs + [v])[..|vs|] == vs;
  }

  /** Appending to the last bucket appends to the flattened entries. */
  lemma AddToLastFlatten(bs: seq<Bucket>, e: Entry)
    requires bs != []
    ensures Flatten(AddToLast(bs, e)) == Flatten(bs) + [e]
  {
    var n := |bs|;
    var init := bs[..n - 1];
    var last := bs[n - 1];
    FlattenSnoc(init, Bucket(last.letter, last.entries + [e]));
    FlattenSnoc(init, last);
    assert init + [last] == bs;
  }

  /** An entry filed under the last bucket's letter keeps every entry filed. */
  lemma AddToLastFiled(bs: seq<Bucket>, e: Entry, language: string, table: Approximations)
    requires WellFormed(table)
    requires bs != [] && Filed(bs, language, table)
    requires e.display != [] && FilingLetter(e.display, Alphabet(language), table) == bs[|bs| - 1].letter
    ensures Filed(AddToLast(bs, e), language, table)
  {
    var r := AddToLast(bs, e);
    forall i, j | 0 <= i < |r| && 0 <= j < |r[i].entries|
      ensures r[i].entries[j].display != []
      ensures FilingLetter(r[i].entries[j].display, Alphabet(language), table) == r[i].letter
    {
      if i < |bs| - 1 || j < |bs[i].entries| {
        assert r[i].entries[j] == bs[i].entries[j];
      }
    }
  }

  /** The lookup adds the term's item or warning, filed under the current bucket's letter. */
  lemma LookupKeepsContents(st: State, done: seq<string>, v: string, links: LinkMap, language: string, table: Approximations)
    requires WellFormed(table)
    requires Foldable(v)
    requires Contents(st.index, done, links)
    requires Filed(st.index.buckets, language, table)
    requires st.index.buckets != []
    requires st.index.buckets[|st.index.buckets| - 1].letter == FilingLetter(IndexDowncase(v), Alphabet(language), table)
    ensures Contents(Lookup(st, v, IndexDowncase(v), links).index, done + [v], links)
    ensures Filed(Lookup(st, v, IndexDowncase(v), links).index.buckets, language, table)
    ensures BucketLetters(Lookup(st, v, IndexDowncase(v), links).index.buckets) == BucketLetters(st.index.buckets)
  {
    MappedSnoc(done, v, links);
    UnmappedSnoc(done, v, links);
    var folded := IndexDowncase(v);
    var bs := st.index.buckets;
    if v in links {
      var e := Entry(folded, links[v]);
      AddToLastFlatten(bs, e);
      AddToLastFiled(bs, e, language, table);
    }
  }

  /** One step from a state satisfying the invariant succeeds on a foldable term and keeps the invariant. */
  lemma StepKeepsInv(st: State, done: seq<string>, v: string, links: LinkMap, language: string, table: Approximations)
    requires WellFormed(table)
    requires Foldable(v)
    requires Inv(st, done, links, language, table)
    ensures Step(st, v, links, language, table).Success?
    ensures Inv(Step(st, v, links, language, table).value, done + [v], links, language, table)
  {
    var folded := IndexDowncase(v);
    var letter := FilingLetter(folded, Alphabet(language), table);
    LettersSnoc(done, v, language, table);
    var ls := Letters(done, language, table);
    OpenKeepsHeaders(st, ls, letter, language, table);
    var headed := Open(st, letter);
    LookupKeepsContents(headed, done, v, links, language, table);
    var r := Lookup(headed, v, folded, links);
    assert Step(st, v, links, language, table) == Success(r);
    InvAfterLookup(headed, r, done + [v], ls + [letter], links, language, table);
    InvTransfer(r, Step(st, v, links, language, table).value, done + [v], links, language, table);
  }

  /** Carries the invariant over to an equal state, so the caller's goal is met as stated. */
  lemma InvTransfer(a: State, b: State, done: seq<string>, links: LinkMap, language: string, table: Approximations)
    requires WellFormed(table)
    requires a == b && Inv(a, done, links, language, table)
    ensures Inv(b, done, links, language, table)
  {
  }

  /** The lookup keeps the heading part, so the invariant holds once the contents are right. */
  lemma InvAfterLookup(headed: State, r: State, done: seq<string>, ls: seq<string>, links: LinkMap, language: string, table: Approximations)
    requires WellFormed(table)
    requires Headers(headed, ls, language, table)
    requires r.prevLetter == headed.prevLetter && r.index.usedLetters == headed.index.usedLetters
    requires BucketLetters(r.index.buckets) == BucketLetters(headed.index.buckets)
    requires Filed(r.index.buckets, language, table)
    requires Contents(r.index, done, links)
    requires Letters(done, language, table) == ls
    ensures Inv(r, done, links, language, table)
  {
  }

  /** A non-empty sequence is its prefix followed by its last element. */
  lemma InitLast(terms: seq<string>)
    requires terms != []
    ensures terms[..|terms| - 1] + [terms[|terms| - 1]] == terms
  {
  }

  /** Every term is foldable exactly when those of the prefix and the last one are. */
  lemma AllFoldableInitLast(terms: seq<string>)
    requires terms != []
    ensures AllFoldable(terms) <==> AllFoldable(terms[..|terms| - 1]) && Foldable(terms[|terms| - 1])
  {
    var init := terms[..|terms| - 1];
    if AllFoldable(terms) {
      forall i | 0 <= i < |init|
        ensures Foldable(init[i])
      {
        assert init[i] == terms[i];
      }
    }
    if AllFoldable(init) && Foldable(terms[|terms| - 1]) {
      forall i | 0 <= i < |terms|
        ensures Foldable(terms[i])
      {
        if i < |init| {
          assert terms[i] == init[i];
        }
      }
    }
  }

  /** After any number of foldable terms, the state satisfies the invariant. */
  lemma {:induction false} RunKeepsInv(terms: seq<string>, links: LinkMap, language: string, table: Approximations)
    requires WellFormed(table)
    requires AllFoldable(terms)
    ensures Run(terms, links, language, table).Success?
    ensures Inv(Run(terms, links, language, table).value, terms, links, language, table)
  {
    if terms == [] {
      InvStart(links, language, table);
    } else {
      var init := terms[..|terms| - 1];
      var v := terms[|terms| - 1];
      AllFoldableInitLast(terms);
      RunKeepsInv(init, links, language, table);
      var st := Run(init, links, language, table).value;
      StepKeepsInv(st, init, v, links, language, table);
      InitLast(terms);
    }
  }

  // ---------------------------------------------------------------------------
  // Which bucket holds which term.

  /**
   The positions where a new letter starts in `ls`: the first position, and
   every position whose letter differs from the one before it. Ascending.
   */
  function Starts(ls: seq<string>): (ss: seq<nat>)
    ensures forall k :: 0 <= k < |ss| ==> ss[k] < |ls|
    ensures forall k, l :: 0 <= k < l < |ss| ==> ss[k] < ss[l]
    ensures ss == [] <==> ls == []
    ensures ss != [] ==> ss[0] == 0
  {
    if ls == [] then []
    else
      var n := |ls|;
      var prev := Starts(ls[..n - 1]);
      if n == 1 || ls[n - 2] != ls[n - 1] then prev + [n - 1] else prev
  }

  /** A position starts a run exactly when it is the first one or its letter differs from the one before. */
  lemma {:induction false} StartsMeaning(ls: seq<string>, p: nat)
    requires p < |ls|
    ensures p in Starts(ls) <==> p == 0 || ls[p - 1] != ls[p]
  {
    var n := |ls|;
    if p < n - 1 {
      var init := ls[..n - 1];
      StartsMeaning(init, p);
      assert init[p] == ls[p];
      assert p > 0 ==> init[p - 1] == ls[p - 1];
    }
  }

  /** Where run `i` of a sequence of length `n` ends: at the next start, or at the end. */
  function RunEnd(ss: seq<nat>, i: nat, n: nat): nat
    requires i < |ss|
  {
    if i + 1 < |ss| then ss[i + 1] else n
  }

  /**
   Bucket `i` has the letter of the `i`-th run of equal letters in `ls`, and
   the buckets up to it hold the mapped terms up to the end of that run.
   */
  predicate RunBucket(bs: seq<Bucket>, vs: seq<string>, ls: seq<string>, ss: seq<nat>, i: nat, links: LinkMap)
    requires |ls| == |vs| && i < |bs| == |ss|
    requires forall k :: 0 <= k < |ss| ==> ss[k] < |ls|
  {
    RunEnd(ss, i, |vs|) <= |vs| &&
    bs[i].letter == ls[ss[i]] && Flatten(bs[..i + 1]) == Mapped(vs[..RunEnd(ss, i, |vs|)], links)
  }

  /** Every bucket belongs to its run of equal letters. */
  predicate Grouped(bs: seq<Bucket>, vs: seq<string>, ls: seq<string>, links: LinkMap)
    requires |ls| == |vs|
  {
    |bs| == |Starts(ls)| && forall i :: 0 <= i < |bs| ==> RunBucket(bs, vs, ls, Starts(ls), i, links)
  }

  /** The starts of a letter sequence extended by one letter. */
  lemma StartsSnoc(ls: seq<string>, l: string)
    ensures Starts(ls + [l]) == Starts(ls) + (if ls == [] || ls[|ls| - 1] != l then [|ls|] else [])
  {
    assert (ls + [l])[..|ls|] == ls;
  }

  /** A bucket whose run is over keeps its run when a term is appended. */
  lemma RunBucketKept(bs: seq<Bucket>, bs': seq<Bucket>, vs: seq<string>, ls: seq<string>, ss: seq<nat>, ss': seq<nat>,
                      v: string, l: string, i: nat, links: LinkMap)
    requires |ls| == |vs| && i < |bs| == |ss| && i < |bs'| == |ss'|
    requires forall k :: 0 <= k < |ss| ==> ss[k] < |ls|
    requires forall k :: 0 <= k < |ss'| ==> ss'[k] < |ls| + 1
    requires RunBucket(bs, vs, ls, ss, i, links)
    requires bs'[..i + 1] == bs[..i + 1]
    requires ss'[i] == ss[i] && RunEnd(ss', i, |vs| + 1) == RunEnd(ss, i, |vs|)
    ensures RunBucket(bs', vs + [v], ls + [l], ss', i, links)
  {
    var e := RunEnd(ss, i, |vs|);
    assert bs'[i] == bs'[..i + 1][i];
    assert (vs + [v])[..e] == vs[..e];
    assert (ls + [l])[ss[i]] == ls[ss[i]];
  }

  /** A term with a new letter opens a bucket of its own; the earlier buckets keep their runs. */
  lemma GroupedNewRun(bs: seq<Bucket>, bs': seq<Bucket>, vs: seq<string>, ls: seq<string>, v: string, l: string, links: LinkMap)
    requires |ls| == |vs| && Grouped(bs, vs, ls, links)
    requires ls == [] || ls[|ls| - 1] != l
    requires |bs'| == |bs| + 1 && bs'[..|bs|] == bs && bs'[|bs|].letter == l
    requires Flatten(bs') == Mapped(vs + [v], links)
    ensures Grouped(bs', vs + [v], ls + [l], links)
  {
    var n := |vs|;
    var ss := Starts(ls);
    StartsSnoc(ls, l);
    var ss' := ss + [n];
    var vs' := vs + [v];
    var ls' := ls + [l];
    assert Starts(ls') == ss';
    forall i | 0 <= i < |bs'|
      ensures RunBucket(bs', vs', ls', ss', i, links)
    {
      if i < |bs| {
        assert bs'[..i + 1] == bs[..i + 1] by {
          assert bs'[..i + 1] == bs'[..|bs|][..i + 1];
        }
        RunBucketKept(bs, bs', vs, ls, ss, ss', v, l, i, links);
      } else {
        assert bs'[..i + 1] == bs';
        assert vs'[..n + 1] == vs';
      }
    }
  }

  /** A term with the same letter as the one before joins the last bucket; the earlier buckets keep their runs. */
  lemma GroupedSameRun(bs: seq<Bucket>, bs': seq<Bucket>, vs: seq<string>, ls: seq<string>, v: string, l: string, links: LinkMap)
    requires |ls| == |vs| && Grouped(bs, vs, ls, links)
    requires ls != [] && ls[|ls| - 1] == l
    requires |bs'| == |bs| && bs'[..|bs| - 1] == bs[..|bs| - 1] && bs'[|bs| - 1].letter == bs[|bs| - 1].letter
    requires Flatten(bs') == Mapped(vs + [v], links)
    ensures Grouped(bs', vs + [v], ls + [l], links)
  {
    var n := |vs|;
    var ss := Starts(ls);
    StartsSnoc(ls, l);
    var vs' := vs + [v];
    var ls' := ls + [l];
    assert Starts(ls') == ss;
    forall i | 0 <= i < |bs'|
      ensures RunBucket(bs', vs', ls', ss, i, links)
    {
      if i < |bs| - 1 {
        assert bs'[..i + 1] == bs[..i + 1] by {
          assert bs'[..i + 1] == bs'[..|bs| - 1][..i + 1];
          assert bs[..i + 1] == bs[..|bs| - 1][..i + 1];
        }
        RunBucketKept(bs, bs', vs, ls, ss, ss, v, l, i, links);
      } else {
        assert RunBucket(bs, vs, ls, ss, i, links);
        assert bs'[i].letter == bs[i].letter;
        assert bs'[..i + 1] == bs';
        assert vs'[..n + 1] == vs';
      }
    }
  }

  /** Looking a term up changes at most the entries of the last bucket. */
  lemma LookupKeepsLetters(st: State, vocab: string, folded: string, links: LinkMap)
    requires st.index.buckets != []
    ensures var bs := st.index.buckets; var bs' := Lookup(st, vocab, folded, links).index.buckets;
      |bs'| == |bs| && bs'[..|bs| - 1] == bs[..|bs| - 1] && bs'[|bs| - 1].letter == bs[|bs| - 1].letter
  {
    var bs := st.index.buckets;
    var bs' := Lookup(st, vocab, folded, links).index.buckets;
    if vocab in links {
      assert bs'[..|bs| - 1] == bs[..|bs| - 1];
    }
  }

  /**
   Opening the bucket of `letter` when it differs from the previous one, then
   looking the term up, keeps every bucket tied to its run of letters.
   */
  lemma LookupKeepsGrouped(st: State, done: seq<string>, ls: seq<string>, v: string, letter: string, links: LinkMap)
    requires |ls| == |done| && Grouped(st.index.buckets, done, ls, links)
    requires letter != [] && st.prevLetter == (if ls == [] then "" else ls[|ls| - 1])
    requires ls != [] ==> st.index.buckets != []
    requires Flatten(st.index.buckets) == Mapped(done, links)
    ensures Grouped(Lookup(Open(st, letter), v, IndexDowncase(v), links).index.buckets, done + [v], ls + [letter], links)
  {
    var folded := IndexDowncase(v);
    var bs := st.index.buckets;
    var headed := Open(st, letter);
    var bs' := Lookup(headed, v, folded, links).index.buckets;
    MappedSnoc(done, v, links);
    assert Flatten(headed.index.buckets) == Flatten(bs) by {
      if st.prevLetter != letter {
        FlattenSnoc(bs, Bucket(letter, []));
      }
    }
    assert headed.index.buckets != [];
    if v in links {
      AddToLastFlatten(headed.index.buckets, Entry(folded, links[v]));
    }
    LookupKeepsLetters(headed, v, folded, links);
    if ls == [] || ls[|ls| - 1] != letter {
      assert headed.index.buckets == bs + [Bucket(letter, [])];
      assert bs'[..|bs|] == bs by {
        assert bs'[..|bs|] == (bs + [Bucket(letter, [])])[..|bs|];
      }
      GroupedNewRun(bs, bs', done, ls, v, letter, links);
    } else {
      GroupedSameRun(bs, bs', done, ls, v, letter, links);
    }
  }

  /** One step keeps every bucket tied to its run of letters. */
  lemma StepKeepsGrouped(st: State, done: seq<string>, v: string, links: LinkMap, language: string, table: Approximations)
    requires WellFormed(table)
    requires Foldable(v)
    requires Inv(st, done, links, language, table)
    requires Grouped(st.index.buckets, done, Letters(done, language, table), links)
    ensures Step(st, v, links, language, table).Success?
    ensures Grouped(Step(st, v, links, language, table).value.index.buckets, done + [v], Letters(done + [v], language, table), links)
  {
    var folded := IndexDowncase(v);
    var letter := FilingLetter(folded, Alphabet(language), table);
    var ls := Letters(done, language, table);
    LettersSnoc(done, v, language, table);
    CompressLast(ls);
    assert ls != [] ==> st.index.buckets != [] by {
      assert |BucketLetters(st.index.buckets)| == |Compress(ls)|;
    }
    LookupKeepsGrouped(st, done, ls, v, letter, links);
  }

  /** After any number of foldable terms, bucket `i` belongs to the `i`-th run of letters. */
  lemma {:induction false} RunKeepsGrouped(terms: seq<string>, links: LinkMap, language: string, table: Approximations)
    requires WellFormed(table)
    requires AllFoldable(terms)
    ensures Run(terms, links, language, table).Success?
    ensures Grouped(Run(terms, links, language, table).value.index.buckets, terms, Letters(terms, language, table), links)
  {
    if terms != [] {
      var init := terms[..|terms| - 1];
      var v := terms[|terms| - 1];
      AllFoldableInitLast(terms);
      RunKeepsGrouped(init, links, language, table);
      RunKeepsInv(init, links, language, table);
      var st := Run(init, links, language, table).value;
      StepKeepsGrouped(st, init, v, links, language, table);
      InitLast(terms);
    }
  }

  /** The entries of two term lists one after the other. */
  lemma {:induction false} MappedAppend(a: seq<string>, b: seq<string>, links: LinkMap)
    ensures Mapped(a + b, links) == Mapped(a, links) + Mapped(b, links)
    decreases |b|
  {
    if b == [] {
      assert a + b == a;
    } else {
      var init := b[..|b| - 1];
      MappedAppend(a, init, links);
      assert (a + b)[..|a + b| - 1] == a + init;
    }
  }

  /** Bucket `i` holds exactly the mapped terms of the `i`-th run of equal letters. */
  lemma GroupedEntries(bs: seq<Bucket>, vs: seq<string>, ls: seq<string>, i: nat, links: LinkMap)
    requires |ls| == |vs| && Grouped(bs, vs, ls, links) && i < |bs|
    ensures var ss := Starts(ls); var e := RunEnd(ss, i, |vs|);
      ss[i] <= e <= |vs| && bs[i].entries == Mapped(vs[ss[i]..e], links)
  {
    var ss := Starts(ls);
    var e := RunEnd(ss, i, |vs|);
    assert RunBucket(bs, vs, ls, ss, i, links);
    var before := if i == 0 then [] else vs[..ss[i]];
    assert Flatten(bs[..i]) == Mapped(before, links) by {
      if i > 0 {
        assert RunBucket(bs, vs, ls, ss, i - 1, links);
        assert bs[..i] == bs[..i - 1 + 1];
      }
    }
    assert bs[..i + 1] == bs[..i] + [bs[i]];
    FlattenSnoc(bs[..i], bs[i]);
    assert vs[..e] == before + vs[ss[i]..e];
    MappedAppend(before, vs[ss[i]..e], links);
    EntriesCancel(Mapped(before, links), bs[i].entries, Mapped(vs[ss[i]..e], links));
  }

  /** Equal sequences with a common prefix have equal rests. */
  lemma EntriesCancel(a: seq<Entry>, x: seq<Entry>, y: seq<Entry>)
    requires a + x == a + y
    ensures x == y
  {
    assert x == (a + x)[|a|..];
    assert y == (a + y)[|a|..];
  }

  // ---------------------------------------------------------------------------
  // What `generate_html_list` produces.

  /** The build fails exactly when some authored term is made of blanks only. */
  lemma BuildFails(sorted: seq<string>, links: LinkMap, language: string, table: Approximations)
    requires WellFormed(table)
    ensures Build(sorted, links, language, table).Failure? <==> exists i :: 0 <= i < |sorted| && AllBlank(sorted[i])
  {
    var vs := NormalizeAll(sorted);
    if Build(sorted, links, language, table).Failure? {
      var i :| 0 <= i < |vs| && !Foldable(vs[i]);
      IndexDowncaseEmpty(vs[i]);
      NormalizeAllSpace(sorted[i]);
    }
    if exists i :: 0 <= i < |sorted| && AllBlank(sorted[i]) {
      var i :| 0 <= i < |sorted| && AllBlank(sorted[i]);
      IndexDowncaseEmpty(vs[i]);
      assert !Foldable(vs[i]);
    }
  }

  /** The fold stops at the first unfoldable term, carrying the warnings of the terms before it. */
  lemma {:induction false} RunStopsAtFirst(terms: seq<string>, i: nat, links: LinkMap, language: string, table: Approximations)
    requires WellFormed(table)
    requires i < |terms| && AllFoldable(terms[..i]) && !Foldable(terms[i])
    ensures Run(terms, links, language, table) == Failure(NoFirstCharacter(Unmapped(terms[..i], links)))
    decreases |terms|
  {
    var init := terms[..|terms| - 1];
    if i < |terms| - 1 {
      PrefixOfInit(terms, i);
      RunStopsAtFirst(init, i, links, language, table);
    } else {
      RunKeepsInv(init, links, language, table);
    }
  }

  /** The first `i` terms of a sequence are also the first `i` of its prefix without the last element. */
  lemma PrefixOfInit(terms: seq<string>, i: nat)
    requires i < |terms| - 1
    ensures terms[..|terms| - 1][..i] == terms[..i] && terms[..|terms| - 1][i] == terms[i]
  {
  }

  /**
   A build that meets a blank term stops there: the error carries one warning
   per unmapped term before it, as Ruby prints them before raising.
   */
  lemma BuildStopsAtFirstBlank(sorted: seq<string>, i: nat, links: LinkMap, language: string, table: Approximations)
    requires WellFormed(table)
    requires i < |sorted| && AllBlank(sorted[i])
    requires forall j :: 0 <= j < i ==> !AllBlank(sorted[j])
    ensures Build(sorted, links, language, table) == Failure(NoFirstCharacter(Unmapped(NormalizeAll(sorted[..i]), links)))
  {
    var vs := NormalizeAll(sorted);
    forall j | 0 <= j < i
      ensures Foldable(vs[..i][j])
    {
      IndexDowncaseEmpty(vs[j]);
      NormalizeAllSpace(sorted[j]);
    }
    IndexDowncaseEmpty(vs[i]);
    assert vs[..i] == NormalizeAll(sorted[..i]);
    RunStopsAtFirst(vs, i, links, language, table);
  }

  /**
   On success the index is the bucketing of the normalised terms:
   used letters are the bucket letters, which are the filing letters with
   repeats of the previous letter dropped; the entries, read bucket by
   bucket, are the mapped terms in input order with the map's links; every
   entry lies in the bucket of its own letter; there is one warning per
   unmapped term, in order.
   */
  lemma BuildMeaning(sorted: seq<string>, links: LinkMap, language: string, table: Approximations)
    requires WellFormed(table)
    requires AllFoldable(NormalizeAll(sorted))
    ensures Build(sorted, links, language, table).Success?
    ensures Build(sorted, links, language, table).value.usedLetters == BucketLetters(Build(sorted, links, language, table).value.buckets)
    ensures Build(sorted, links, language, table).value.usedLetters == Compress(Letters(NormalizeAll(sorted), language, table))
    ensures Flatten(Build(sorted, links, language, table).value.buckets) == Mapped(NormalizeAll(sorted), links)
    ensures Build(sorted, links, language, table).value.warnings == Unmapped(NormalizeAll(sorted), links)
    ensures Filed(Build(sorted, links, language, table).value.buckets, language, table)
  {
    RunKeepsInv(NormalizeAll(sorted), links, language, table);
  }

  /**
   Bucket `i` is headed by the letter that starts the `i`-th run of equal
   filing letters among the normalised terms, and holds the mapped terms of
   that run and nothing else: a letter that comes back after another one
   opens a fresh bucket.
   */
  lemma BuildBuckets(sorted: seq<string>, links: LinkMap, language: string, table: Approximations)
    requires WellFormed(table)
    requires AllFoldable(NormalizeAll(sorted))
    ensures Build(sorted, links, language, table).Success?
    ensures var vs := NormalizeAll(sorted); var ls := Letters(vs, language, table); var ss := Starts(ls);
      var bs := Build(sorted, links, language, table).value.buckets;
      && |bs| == |ss|
      && forall i :: 0 <= i < |bs| ==>
        && bs[i].letter == ls[ss[i]]
        && ss[i] <= RunEnd(ss, i, |vs|) <= |vs|
        && bs[i].entries == Mapped(vs[ss[i]..RunEnd(ss, i, |vs|)], links)
  {
    var vs := NormalizeAll(sorted);
    var ls := Letters(vs, language, table);
    RunKeepsGrouped(vs, links, language, table);
    assert Build(sorted, links, language, table) == Success(Run(vs, links, language, table).value.index);
    var bs := Build(sorted, links, language, table).value.buckets;
    forall i | 0 <= i < |bs|
      ensures bs[i].letter == ls[Starts(ls)[i]]
      ensures Starts(ls)[i] <= RunEnd(Starts(ls), i, |vs|) <= |vs|
      ensures bs[i].entries == Mapped(vs[Starts(ls)[i]..RunEnd(Starts(ls), i, |vs|)], links)
    {
      assert RunBucket(bs, vs, ls, Starts(ls), i, links);
      GroupedEntries(bs, vs, ls, i, links);
    }
  }

  /** A letter is used (and a bucket opened) exactly when it differs from the previous term's letter. */
  lemma BuildUsedLettersNoRepeats(sorted: seq<string>, links: LinkMap, language: string, table: Approximations)
    requires WellFormed(table)
    requires AllFoldable(NormalizeAll(sorted))
    ensures Build(sorted, links, language, table).Success?
    ensures |Build(sorted, links, language, table).value.usedLetters| <= |sorted|
    ensures |Build(sorted, links, language, table).value.usedLetters| == 0 <==> sorted == []
    ensures forall i :: 0 < i < |Build(sorted, links, language, table).value.usedLetters| ==>
      Build(sorted, links, language, table).value.usedLetters[i - 1] != Build(sorted, links, language, table).value.usedLetters[i]
  {
    BuildMeaning(sorted, links, language, table);
    CompressNoRepeats(Letters(NormalizeAll(sorted), language, table));
    CompressLast(Letters(NormalizeAll(sorted), language, table));
  }

  /**
   When the collation keeps the terms of each filing letter together, no
   letter is used twice and the navigation bar links each bucket once.
   */
  lemma BuildUsedLettersDistinct(sorted: seq<string>, links: LinkMap, language: string, table: Approximations)
    requires WellFormed(table)
    requires AllFoldable(NormalizeAll(sorted))
    requires var ls := Letters(NormalizeAll(sorted), language, table);
      forall i, j, k :: 0 <= i < j < k < |ls| && ls[i] == ls[k] ==> ls[j] == ls[i]
    ensures Build(sorted, links, language, table).Success?
    ensures forall i, j :: 0 <= i < j < |Build(sorted, links, language, table).value.usedLetters| ==>
      Build(sorted, links, language, table).value.usedLetters[i] != Build(sorted, links, language, table).value.usedLetters[j]
  {
    BuildMeaning(sorted, links, language, table);
    CompressGroupedDistinct(Letters(NormalizeAll(sorted), language, table));
  }

  /** The positions `i` of `vs` whose term is (`mapped`) or is not (`!mapped`) a key of the link map, ascending. */
  function Positions(vs: seq<string>, links: LinkMap, mapped: bool): (ps: seq<nat>)
    ensures forall k :: 0 <= k < |ps| ==> ps[k] < |vs| && (vs[ps[k]] in links) == mapped
    ensures forall k, l :: 0 <= k < l < |ps| ==> ps[k] < ps[l]
  {
    if vs == [] then []
    else
      var init := vs[..|vs| - 1];
      var ps0 := Positions(init, links, mapped);
      assert forall k :: 0 <= k < |ps0| ==> vs[ps0[k]] == init[ps0[k]];
      if (vs[|vs| - 1] in links) == mapped then ps0 + [|vs| - 1] else ps0
  }

  /** Every position of the wanted kind is listed. */
  lemma {:induction false} PositionsComplete(vs: seq<string>, links: LinkMap, mapped: bool)
    ensures forall i :: 0 <= i < |vs| && (vs[i] in links) == mapped ==> i in Positions(vs, links, mapped)
  {
    if vs != [] {
      var init := vs[..|vs| - 1];
      PositionsComplete(init, links, mapped);
      forall i | 0 <= i < |init|
        ensures vs[i] == init[i]
      {
      }
    }
  }

  /** The items are those of the mapped terms, in input order: item `k` is the term at the `k`-th mapped position. */
  lemma {:induction false} MappedInOrder(vs: seq<string>, links: LinkMap)
    ensures |Mapped(vs, links)| == |Positions(vs, links, true)|
    ensures forall k :: 0 <= k < |Mapped(vs, links)| ==>
      var i := Positions(vs, links, true)[k];
      Mapped(vs, links)[k] == Entry(IndexDowncase(vs[i]), links[vs[i]])
  {
    if vs != [] {
      var init, v := vs[..|vs| - 1], vs[|vs| - 1];
      MappedInOrder(init, links);
      InitLast(vs);
      MappedSnoc(init, v, links);
      var ps0, ps := Positions(init, links, true), Positions(vs, links, true);
      assert ps == if v in links then ps0 + [|vs| - 1] else ps0;
      forall k | 0 <= k < |Mapped(vs, links)|
        ensures Mapped(vs, links)[k] == Entry(IndexDowncase(vs[ps[k]]), links[vs[ps[k]]])
      {
        if k < |ps0| {
          assert ps[k] == ps0[k] && vs[ps0[k]] == init[ps0[k]];
        }
      }
    }
  }

  /** The warnings are those of the unmapped terms, in input order: warning `k` names the term at the `k`-th unmapped position. */
  lemma {:induction false} UnmappedInOrder(vs: seq<string>, links: LinkMap)
    ensures |Unmapped(vs, links)| == |Positions(vs, links, false)|
    ensures forall k :: 0 <= k < |Unmapped(vs, links)| ==>
      Unmapped(vs, links)[k] == NoUrlMapping(IndexDowncase(vs[Positions(vs, links, false)[k]]))
  {
    if vs != [] {
      var init, v := vs[..|vs| - 1], vs[|vs| - 1];
      UnmappedInOrder(init, links);
      InitLast(vs);
      UnmappedSnoc(init, v, links);
      var ps0, ps := Positions(init, links, false), Positions(vs, links, false);
      assert ps == if v in links then ps0 else ps0 + [|vs| - 1];
      forall k | 0 <= k < |Unmapped(vs, links)|
        ensures Unmapped(vs, links)[k] == NoUrlMapping(IndexDowncase(vs[ps[k]]))
      {
        if k < |ps0| {
          assert ps[k] == ps0[k] && vs[ps0[k]] == init[ps0[k]];
        }
      }
    }
  }

  /** Every term gives exactly one item or one warning. */
  lemma {:induction false} ItemsPlusWarnings(vs: seq<string>, links: LinkMap)
    ensures |Mapped(vs, links)| + |Unmapped(vs, links)| == |vs|
  {
    if vs != [] {
      ItemsPlusWarnings(vs[..|vs| - 1], links);
    }
  }

  /** When the map covers every term there are no warnings and every term gets an entry. */
  lemma {:induction false} FullMapNoWarnings(vs: seq<string>, links: LinkMap)
    requires forall i :: 0 <= i < |vs| ==> vs[i] in links
    ensures Unmapped(vs, links) == []
    ensures |Mapped(vs, links)| == |vs|
  {
    if vs != [] {
      FullMapNoWarnings(vs[..|vs| - 1], links);
    }
  }

  /** Every navigation link points at a bucket of the built index. */
  lemma NavLinksHitBuckets(sorted: seq<string>, links: LinkMap, language: string, table: Approximations)
    requires WellFormed(table)
    requires AllFoldable(NormalizeAll(sorted))
    ensures Build(sorted, links, language, table).Success?
    ensures var ix := Build(sorted, links, language, table).value;
      forall n :: 0 <= n < |AlphabetLinks(ix.usedLetters, language)| && AlphabetLinks(ix.usedLetters, language)[n].Link? ==>
        exists b :: b in ix.buckets && b.letter == [AlphabetLinks(ix.usedLetters, language)[n].letter]
  {
    BuildMeaning(sorted, links, language, table);
    var ix := Build(sorted, links, language, table).value;
    forall n | 0 <= n < |AlphabetLinks(ix.usedLetters, language)| && AlphabetLinks(ix.usedLetters, language)[n].Link?
      ensures exists b :: b in ix.buckets && b.letter == [AlphabetLinks(ix.usedLetters, language)[n].letter]
    {
      var l := [AlphabetLinks(ix.usedLetters, language)[n].letter];
      var i :| 0 <= i < |ix.usedLetters| && ix.usedLetters[i] == l;
      assert ix.buckets[i] in ix.buckets;
    }
  }
}

=== FILE: locale.dfy ===
/** The locale alphabet (`locale_alphabet`) and the letter navigation bar (`alphabet_links`). */
module Locale {
  import opened RubyString

  /** The 26 lower-case ASCII letters, in order. */
  const Latin: string := "abcdefghijklmnopqrstuvwxyz"
  /** The Spanish alphabet: the Latin letters with ñ between n and o. */
  const Spanish: string := Latin[..14] + "ñ" + Latin[14..]

  /** Lower-case letters an alphabet may hold: ASCII a..z and ñ. */
  predicate IsAlphabetLetter(c: char) {
    'a' <= c <= 'z' || c == 'ñ'
  }

  /** The filing alphabet: Spanish for "es", the 26 Latin letters for every other language. */
  function Alphabet(language: string): (r: string)
    ensures language == "es" ==> |r| == 27 && r[13] == 'n' && r[14] == 'ñ'
    ensures language == "es" ==> r[..14] == Latin[..14] && r[15..] == Latin[14..]
    ensures language != "es" ==> |r| == 26 && forall i :: 0 <= i < 26 ==> r[i] as int == 'a' as int + i
    ensures forall i :: 0 <= i < |r| ==> IsAlphabetLetter(r[i]) && !IsUpperLatin(r[i])
  {
    LatinCodes();
    if language == "es" then SpanishShape(); Spanish else Latin
  }

  /** No letter occurs twice in an alphabet. */
  lemma AlphabetDistinct(language: string)
    ensures forall i, j :: 0 <= i < j < |Alphabet(language)| ==> Alphabet(language)[i] != Alphabet(language)[j]
  {
    LatinCodes();
    if language == "es" {
      SpanishShape();
    }
  }

  /** The Latin alphabet is the 26 consecutive code points from 'a'. */
  lemma LatinCodes()
    ensures |Latin| == 26
    ensures forall i :: 0 <= i < 26 ==> Latin[i] as int == 'a' as int + i
  {
  }

  /** The Spanish alphabet is the Latin one with ñ inserted after n. */
  lemma SpanishShape()
    ensures |Spanish| == 27 && Spanish[14] == 'ñ'
    ensures forall i :: 0 <= i < 14 ==> Spanish[i] == Latin[i]
    ensures forall i :: 15 <= i < 27 ==> Spanish[i] == Latin[i - 1]
  {
  }

  /** One item of the navigation bar: a link to a letter's section, or a plain label. */
  datatype NavItem = Link(letter: char) | Plain(letter: char)

  /** `alphabet_links`: one item per alphabet letter, a link when the letter was used. */
  function AlphabetLinks(usedLetters: seq<string>, language: string): (r: seq<NavItem>)
    ensures |r| == |Alphabet(language)|
    ensures forall i :: 0 <= i < |r| ==> r[i].letter == Alphabet(language)[i]
    ensures forall i :: 0 <= i < |r| ==> (r[i].Link? <==> [r[i].letter] in usedLetters)
  {
    var a := Alphabet(language);
    seq(|a|, i requires 0 <= i < |a| => if [a[i]] in usedLetters then Link(a[i]) else Plain(a[i]))
  }

  /** Every letter of every alphabet appears in the bar exactly once. */
  lemma AlphabetLinksCoverAlphabet(usedLetters: seq<string>, language: string, c: char)
    requires c in Alphabet(language)
    ensures exists i :: 0 <= i < |AlphabetLinks(usedLetters, language)| && AlphabetLinks(usedLetters, language)[i].letter == c
    ensures forall i, j :: 0 <= i < j < |AlphabetLinks(usedLetters, language)| ==>
      AlphabetLinks(usedLetters, language)[i].letter != AlphabetLinks(usedLetters, language)[j].letter
  {
    AlphabetDistinct(language);
    var a := Alphabet(language);
    var i :| 0 <= i < |a| && a[i] == c;
    assert AlphabetLinks(usedLetters, language)[i].letter == c;
  }
}

=== FILE: results.dfy ===
/** Failure-carrying values used where the Ruby code returns nil or raises. */
module Results {

  /** `None` stands for the `NoMethodError` Ruby raises when a method is sent to nil. */
  datatype Option<+T> = None | Some(value: T)

  datatype Result<+T, +E> = Success(value: T) | Failure(error: E)
}

=== FILE: ruby_string.dfy ===
/**
 The parts of Ruby's `String` that the index builder relies on, over `seq<char>`
 (a `char` is a Unicode scalar value): `downcase`, the first UTF-8 byte,
 `strip`, `gsub(': ', '')`, awk-style `split(' ')` and `join(' ')`, and
 substring search.
 */
module RubyString {

  /** The separators of awk-style `split(' ')`: ASCII `isspace`. */
  predicate IsSpace(c: char) {
    c == ' ' || c == '\t' || c == '\n' || c == '\U{B}' || c == '\U{C}' || c == '\r'
  }

  /** The characters `strip` removes from either end: ASCII whitespace and NUL. */
  predicate IsBlank(c: char) {
    IsSpace(c) || c == '\0'
  }

  /** A string that `strip` empties: blanks only, the empty string included. */
  predicate AllBlank(s: string) {
    forall k :: 0 <= k < |s| ==> IsBlank(s[k])
  }

  predicate IsNonSpace(c: char) {
    !IsSpace(c)
  }

  /** Upper-case letters of ASCII and of the Latin-1 Supplement (U+00C0..U+00DE except U+00D7). */
  predicate IsUpperLatin(c: char) {
    ('A' <= c <= 'Z') || ('\U{C0}' <= c <= '\U{DE}' && c != '\U{D7}')
  }

  /** `downcase` of a single character, for ASCII and the Latin-1 Supplement. */
  function Lower(c: char): (r: char)
    ensures !IsUpperLatin(r)
    ensures IsSpace(r) <==> IsSpace(c)
    ensures (r as int < 128) <==> (c as int < 128)
    ensures ('a' <= r <= 'z') <==> ('a' <= c <= 'z' || 'A' <= c <= 'Z')
    ensures r != c ==> IsUpperLatin(c)
  {
    if IsUpperLatin(c) then (c as int + 32) as char else c
  }

  /** `downcase` changes nothing the second time. */
  lemma LowerIdempotent(c: char)
    ensures Lower(Lower(c)) == Lower(c)
  {
  }

  /** `downcase` of a string: character by character, length preserved. */
  function Downcase(s: string): (r: string)
    ensures |r| == |s|
    ensures forall i :: 0 <= i < |s| ==> r[i] == Lower(s[i])
    ensures forall i :: 0 <= i < |r| ==> !IsUpperLatin(r[i])
  {
    seq(|s|, i requires 0 <= i < |s| => Lower(s[i]))
  }

  /** The first byte of the UTF-8 encoding of `c` (what `c.bytes[0]` returns). */
  function LeadByte(c: char): (r: int)
    ensures 0 <= r < 256
    ensures c as int < 128 ==> r == c as int
    ensures c as int >= 128 ==> r >= 0xC2
  {
    var n := c as int;
    if n < 0x80 then n
    else if n < 0x800 then 0xC0 + n / 0x40
    else if n < 0x1_0000 then 0xE0 + n / 0x1000
    else 0xF0 + n / 0x4_0000
  }

  /** Number of leading characters of `s` that satisfy `p`. */
  function CountLeading(s: string, p: char -> bool): (n: nat)
    ensures n <= |s|
    ensures forall k :: 0 <= k < n ==> p(s[k])
    ensures n == |s| || !p(s[n])
  {
    if s != [] && p(s[0]) then 1 + CountLeading(s[1..], p) else 0
  }

  /** Number of trailing characters of `s` that satisfy `p`. */
  function CountTrailing(s: string, p: char -> bool): (n: nat)
    ensures n <= |s|
    ensures forall k :: |s| - n <= k < |s| ==> p(s[k])
    ensures n == |s| || !p(s[|s| - n - 1])
  {
    if s != [] && p(s[|s| - 1]) then 1 + CountTrailing(s[..|s| - 1], p) else 0
  }

  /** `strip`: drop leading and trailing blanks. */
  function Strip(s: string): (r: string)
    ensures r == [] <==> forall k :: 0 <= k < |s| ==> IsBlank(s[k])
    ensures r != [] ==> !IsBlank(r[0]) && !IsBlank(r[|r| - 1])
    ensures r != [] ==> r == s[CountLeading(s, IsBlank)..|s| - CountTrailing(s, IsBlank)]
  {
    var i := CountLeading(s, IsBlank);
    var t := s[i..];
    var j := CountTrailing(t, IsBlank);
    var r := t[..|t| - j];
    if r == [] then
      r
    else
      assert CountTrailing(s, IsBlank) == j by { CountTrailingSuffix(s, i, IsBlank); }
      r
  }

  /** Trailing counts are the same on a suffix that still holds a non-matching character. */
  lemma {:induction false} CountTrailingSuffix(s: string, i: nat, p: char -> bool)
    requires i <= |s|
    requires CountTrailing(s[i..], p) < |s| - i
    ensures CountTrailing(s, p) == CountTrailing(s[i..], p)
    decreases |s|
  {
    if s != [] && p(s[|s| - 1]) {
      assert s[i..][..|s[i..]| - 1] == s[..|s| - 1][i..];
      CountTrailingSuffix(s[..|s| - 1], i, p);
    }
  }

  /** `strip` is idempotent. */
  lemma StripIdempotent(s: string)
    ensures Strip(Strip(s)) == Strip(s)
  {
    var r := Strip(s);
    if r != [] {
      assert CountLeading(r, IsBlank) == 0;
      assert CountTrailing(r, IsBlank) == 0;
      assert r[0..|r|] == r;
    }
  }

  /** Does `s` contain the two-character sequence ": "? */
  predicate HasColonSpace(s: string) {
    exists k :: 0 <= k < |s| - 1 && s[k] == ':' && s[k + 1] == ' '
  }

  /** `gsub(': ', '')`: remove every occurrence of ": ", scanning left to right. */
  function RemoveColonSpace(s: string): (r: string)
    ensures |r| <= |s|
    ensures r == [] ==> s == [] || s[|s| - 1] == ' '
    ensures s != [] && s[|s| - 1] != ' ' ==> r != [] && r[|r| - 1] == s[|s| - 1]
    decreases |s|
  {
    if |s| >= 2 && s[0] == ':' && s[1] == ' ' then RemoveColonSpace(s[2..])
    else if s == [] then []
    else [s[0]] + RemoveColonSpace(s[1..])
  }

  /** The removal leaves a string unchanged exactly when it holds no ": ". */
  lemma {:induction false} RemoveColonSpaceIdentity(s: string)
    ensures RemoveColonSpace(s) == s <==> !HasColonSpace(s)
    decreases |s|
  {
    if |s| >= 2 && s[0] == ':' && s[1] == ' ' {
      assert s[0] == ':' && s[0 + 1] == ' ';
    } else if s != [] {
      RemoveColonSpaceIdentity(s[1..]);
      if HasColonSpace(s) {
        var k :| 0 <= k < |s| - 1 && s[k] == ':' && s[k + 1] == ' ';
        assert k != 0;
        assert s[1..][k - 1] == ':' && s[1..][k - 1 + 1] == ' ';
      }
      if HasColonSpace(s[1..]) {
        var k :| 0 <= k < |s[1..]| - 1 && s[1..][k] == ':' && s[1..][k + 1] == ' ';
        assert s[k + 1] == ':' && s[k + 1 + 1] == ' ';
      }
      assert RemoveColonSpace(s) == s <==> RemoveColonSpace(s[1..]) == s[1..] by {
        assert s == [s[0]] + s[1..];
      }
    }
  }

  /** The removal is local: a string cut anywhere but right after a `:` is handled piece by piece. */
  lemma {:induction false} RemoveColonSpaceAppend(a: string, b: string)
    requires a == [] || a[|a| - 1] != ':'
    ensures RemoveColonSpace(a + b) == RemoveColonSpace(a) + RemoveColonSpace(b)
    decreases |a|
  {
    if a == [] {
      assert a + b == b;
    } else if |a| >= 2 && a[0] == ':' && a[1] == ' ' {
      assert (a + b)[2..] == a[2..] + b;
      RemoveColonSpaceAppend(a[2..], b);
    } else {
      assert (a + b)[1..] == a[1..] + b;
      RemoveColonSpaceAppend(a[1..], b);
      AppendAssoc([a[0]], RemoveColonSpace(a[1..]), RemoveColonSpace(b));
    }
  }

  /**
   Every ": " of the original string is deleted, including one right after a
   `:` (two occurrences cannot overlap), and the text on either side of it is
   handled separately.
   */
  lemma {:induction false} RemoveColonSpaceCut(a: string, b: string)
    ensures RemoveColonSpace(a + ": " + b) == RemoveColonSpace(a) + RemoveColonSpace(b)
    decreases |a|
  {
    var s := a + ": " + b;
    if a == [] {
      assert s == ": " + b;
      assert s[2..] == b;
    } else if |a| >= 2 && a[0] == ':' && a[1] == ' ' {
      assert s[2..] == a[2..] + ": " + b;
      RemoveColonSpaceCut(a[2..], b);
    } else {
      assert s[1] != ' ' || a[0] != ':' by {
        if |a| == 1 {
          assert s[1] == ':';
        } else {
          assert s[1] == a[1];
        }
      }
      assert s[1..] == a[1..] + ": " + b;
      RemoveColonSpaceCut(a[1..], b);
      AppendAssoc([a[0]], RemoveColonSpace(a[1..]), RemoveColonSpace(b));
    }
  }

  /** Removal can expose a new ": ", so normalising twice differs from once. */
  lemma RemoveColonSpaceNotIdempotent()
    ensures RemoveColonSpace("::  x") == ": x"
    ensures RemoveColonSpace(RemoveColonSpace("::  x")) == "x"
  {
    assert RemoveColonSpace("  x") == "  x" by {
      assert RemoveColonSpace(" x") == " x" by {
        assert RemoveColonSpace("x") == "x";
      }
    }
    assert RemoveColonSpace(": x") == "x";
  }

  /** Does `item` occur in `v` as a contiguous substring? */
  predicate Contains(v: string, item: string): (r: bool)
    ensures item == [] ==> r
    ensures |item| > |v| ==> !r
  {
    assert item == [] ==> OccursAt(v, item, 0);
    exists k :: 0 <= k <= |v| - |item| && OccursAt(v, item, k)
  }

  predicate OccursAt(v: string, item: string, k: nat)
    requires k + |item| <= |v|
  {
    v[k..k + |item|] == item
  }

  /** A non-empty run of non-separator characters: one field of `split(' ')`. */
  predicate IsWord(w: string) {
    w != [] && forall k :: 0 <= k < |w| ==> !IsSpace(w[k])
  }

  /** Awk-style `split(' ')`: the maximal runs of non-separator characters, in order. */
  function Words(s: string): (ws: seq<string>)
    ensures forall i :: 0 <= i < |ws| ==> IsWord(ws[i])
    decreases |s|
  {
    if s == [] then []
    else if IsSpace(s[0]) then Words(s[1..])
    else
      var n := CountLeading(s, IsNonSpace);
      [s[..n]] + Words(s[n..])
  }

  /** `join(' ')`. */
  function Join(ws: seq<string>): string {
    if ws == [] then []
    else if |ws| == 1 then ws[0]
    else ws[0] + " " + Join(ws[1..])
  }

  /** A word followed by the end or by a separator is split off as one field. */
  lemma WordsCons(w: string, t: string)
    requires IsWord(w)
    requires t == [] || IsSpace(t[0])
    ensures Words(w + t) == [w] + Words(t)
  {
    var s := w + t;
    var n := CountLeading(s, IsNonSpace);
    assert forall k :: 0 <= k < |w| ==> s[k] == w[k];
    assert t != [] ==> s[|w|] == t[0];
    assert n == |w|;
    assert s[..n] == w && s[n..] == t;
  }

  /** Splitting a join of well-formed words gives the words back. */
  lemma {:induction false} WordsJoin(ws: seq<string>)
    requires forall i :: 0 <= i < |ws| ==> IsWord(ws[i])
    ensures Words(Join(ws)) == ws
  {
    if ws == [] {
    } else if |ws| == 1 {
      WordsCons(ws[0], []);
      assert ws[0] + [] == ws[0];
    } else {
      var rest := Join(ws[1..]);
      WordsJoin(ws[1..]);
      assert Words(" " + rest) == Words(rest) by {
        assert (" " + rest)[1..] == rest;
      }
      WordsCons(ws[0], " " + rest);
      assert ws[0] + " " + rest == ws[0] + (" " + rest);
      assert ws == [ws[0]] + ws[1..];
    }
  }

  /** A string splits into no fields exactly when it consists of separators only. */
  lemma {:induction false} WordsEmpty(s: string)
    ensures Words(s) == [] <==> forall k :: 0 <= k < |s| ==> IsSpace(s[k])
    decreases |s|
  {
    if s != [] && IsSpace(s[0]) {
      WordsEmpty(s[1..]);
      assert forall k :: 1 <= k < |s| ==> s[k] == s[1..][k - 1];
    }
  }

  /** The first field starts with the first non-separator character. */
  lemma {:induction false} WordsFirst(s: string)
    requires Words(s) != []
    ensures CountLeading(s, IsSpace) < |s|
    ensures Words(s)[0][0] == s[CountLeading(s, IsSpace)]
    decreases |s|
  {
    if IsSpace(s[0]) {
      WordsFirst(s[1..]);
      assert CountLeading(s, IsSpace) == 1 + CountLeading(s[1..], IsSpace);
    } else {
      assert CountLeading(s, IsSpace) == 0;
    }
  }

  /** A join of non-empty words is empty exactly when there are no words. */
  lemma JoinEmpty(ws: seq<string>)
    requires forall i :: 0 <= i < |ws| ==> IsWord(ws[i])
    ensures Join(ws) == [] <==> ws == []
  {
    if |ws| > 1 {
      assert |Join(ws)| >= |ws[0]|;
    }
  }

  /** A join of words starts with the first word. */
  lemma JoinFirst(ws: seq<string>)
    requires ws != [] && IsWord(ws[0])
    ensures Join(ws) != [] && Join(ws)[0] == ws[0][0]
  {
  }
  /**
   The string with leading and trailing separators dropped and every inner
   run of separators replaced by one space, read one character at a time:
   `pending` says a separator was seen since the last kept character, and
   `started` that some character has been kept.
   */
  function SqueezeFrom(s: string, pending: bool, started: bool): string
    decreases |s|
  {
    if s == [] then []
    else if IsSpace(s[0]) then SqueezeFrom(s[1..], started, started)
    else (if pending then " " else "") + [s[0]] + SqueezeFrom(s[1..], false, true)
  }

  function Squeeze(s: string): string {
    SqueezeFrom(s, false, false)
  }

  /** What follows a kept character: a space if a separator comes first, then the remaining words. */
  function JoinRest(t: string, pending: bool): string {
    var ws := Words(t);
    if ws == [] then [] else (if pending || IsSpace(t[0]) then " " else "") + Join(ws)
  }

  /** Joining a word list with one more word in front. */
  lemma JoinCons(w: string, ws: seq<string>)
    ensures Join([w] + ws) == w + (if ws == [] then [] else " " + Join(ws))
  {
    assert ([w] + ws)[1..] == ws;
  }

  /** A kept character continues the first word of what follows it, or stands alone before a separator. */
  lemma WordsOneMore(c: char, t: string)
    requires !IsSpace(c)
    ensures Join(Words([c] + t)) == [c] + JoinRest(t, false)
  {
    if t == [] || IsSpace(t[0]) {
      assert IsWord([c]);
      WordsCons([c], t);
      var ws := Words(t);
      JoinCons([c], ws);
      assert Join(Words([c] + t)) == [c] + (if ws == [] then [] else " " + Join(ws));
    } else {
      WordsGrow(c, t);
      assert Words(t) != [];
      assert JoinRest(t, false) == "" + Join(Words(t)) == Join(Words(t));
    }
  }

  /** A kept character before a non-separator joins the first field. */
  lemma WordsGrow(c: char, t: string)
    requires !IsSpace(c) && t != [] && !IsSpace(t[0])
    ensures Join(Words([c] + t)) == [c] + Join(Words(t))
  {
    var s := [c] + t;
    var n := CountLeading(t, IsNonSpace);
    assert s[1..] == t;
    assert CountLeading(s, IsNonSpace) == n + 1;
    assert Words(s) == [s[..n + 1]] + Words(s[n + 1..]);
    assert Words(t) == [t[..n]] + Words(t[n..]);
    assert s[..n + 1] == [c] + t[..n];
    assert s[n + 1..] == t[n..];
    var rest := Words(t[n..]);
    var tail := if rest == [] then [] else " " + Join(rest);
    JoinCons([c] + t[..n], rest);
    JoinCons(t[..n], rest);
    assert Join(Words(s)) == ([c] + t[..n]) + tail;
    assert Join(Words(t)) == t[..n] + tail;
    AppendAssoc([c], t[..n], tail);
  }

  lemma AppendAssoc(a: string, b: string, c: string)
    ensures a + b + c == a + (b + c)
  {
  }

  /** Once a character has been kept, squeezing the rest emits exactly the rest of the join. */
  lemma {:induction false} SqueezeStarted(t: string, pending: bool)
    ensures SqueezeFrom(t, pending, true) == JoinRest(t, pending)
    decreases |t|
  {
    if t != [] {
      SqueezeStarted(t[1..], IsSpace(t[0]));
      if IsSpace(t[0]) {
        assert Words(t) == Words(t[1..]);
        WordsEmpty(t[1..]);
      } else {
        WordsOneMore(t[0], t[1..]);
        assert [t[0]] + t[1..] == t;
      }
    }
  }

  /** Splitting and rejoining squeezes the separators: the fields are the maximal runs of non-separators, in order. */
  lemma {:induction false} WordsSqueeze(s: string)
    ensures Join(Words(s)) == Squeeze(s)
    decreases |s|
  {
    if s != [] {
      if IsSpace(s[0]) {
        WordsSqueeze(s[1..]);
      } else {
        SqueezeStarted(s[1..], false);
        WordsOneMore(s[0], s[1..]);
        assert [s[0]] + s[1..] == s;
      }
    }
  }

  /** The fields of `s` are the one list of words whose join is `Squeeze(s)`. */
  lemma WordsUnique(s: string, ws: seq<string>)
    requires forall i :: 0 <= i < |ws| ==> IsWord(ws[i])
    ensures Join(ws) == Squeeze(s) <==> ws == Words(s)
  {
    WordsSqueeze(s);
    WordsJoin(Words(s));
    WordsJoin(ws);
  }
}


=== FILE: scenarios.dfy ===
/** Worked examples of the index builder on small vocabularies. */
module Scenarios {
  import opened Results
  import opened RubyString
  import opened Locale
  import opened CaseFold
  import opened Filing
  import opened IndexBuilder

  /** The case fold of words joined by single spaces folds each word. */
  lemma FoldJoined(ws: seq<string>)
    requires forall i :: 0 <= i < |ws| ==> IsWord(ws[i])
    ensures IndexDowncase(Join(ws)) == Join(FoldWords(ws))
  {
    WordsJoin(ws);
  }

  /** The filing letter of a term starting with an ASCII letter in either language. */
  lemma LetterOfAscii(folded: string, language: string, table: Approximations)
    requires WellFormed(table)
    requires folded != [] && 'a' <= folded[0] <= 'z'
    ensures FilingLetter(folded, Alphabet(language), table) == [folded[0]]
  {
    LatinCodes();
    var a := Alphabet(language);
    var i := folded[0] as int - 'a' as int;
    if language == "es" {
      SpanishShape();
      if i < 14 {
        assert a[i] == folded[0];
      } else {
        assert a[i + 1] == folded[0];
      }
    } else {
      assert a[i] == folded[0];
    }
  }

  /** An empty vocabulary gives no buckets, no used letters and no warnings. */
  lemma EmptyVocabulary(links: LinkMap, language: string)
    ensures Build([], links, language, LatinApproximations) == Success(Index([], [], []))
  {
    assert NormalizeAll([]) == [];
  }

  /** The fold over one term is one step from the start state. */
  lemma RunOne(v: string, links: LinkMap, language: string, table: Approximations)
    requires WellFormed(table)
    ensures Run([v], links, language, table) == Step(Start, v, links, language, table)
  {
    assert [v][..0] == [];
  }

  /** The fold over a longer list is one more step after the fold over its prefix. */
  lemma RunMore(terms: seq<string>, v: string, links: LinkMap, language: string, table: Approximations)
    requires WellFormed(table)
    requires Run(terms, links, language, table).Success?
    ensures Run(terms + [v], links, language, table) == Step(Run(terms, links, language, table).value, v, links, language, table)
  {
    assert (terms + [v])[..|terms|] == terms;
  }

  /** The state after a first term with the given filing letter and case fold. */
  function First(v: string, folded: string, letter: string, links: LinkMap): State {
    State(Index(
      [Bucket(letter, if v in links then [Entry(folded, links[v])] else [])], [letter],
      if v in links then [] else [NoUrlMapping(folded)]), letter)
  }

  /** The lookup of a first term after its bucket was opened. */
  lemma LookupFirst(v: string, folded: string, letter: string, links: LinkMap)
    ensures Lookup(State(Index([Bucket(letter, [])], [letter], []), letter), v, folded, links) == First(v, folded, letter, links)
  {
    var headed := State(Index([Bucket(letter, [])], [letter], []), letter);
    if v in links {
      var e := Entry(folded, links[v]);
      var none: seq<Entry> := [];
      assert none + [e] == [e];
      assert headed.index.buckets[..0] == [];
    }
  }

  /** A single term opens the bucket of its letter and adds its entry there, or warns. */
  lemma OneStep(v: string, folded: string, letter: string, links: LinkMap, language: string, table: Approximations)
    requires WellFormed(table)
    requires IndexDowncase(v) == folded && folded != []
    requires FilingLetter(folded, Alphabet(language), table) == letter
    ensures Step(Start, v, links, language, table) == Success(First(v, folded, letter, links))
  {
    assert letter != [];
    assert Open(Start, letter) == State(Index([Bucket(letter, [])], [letter], []), letter);
    LookupFirst(v, folded, letter, links);
  }

  /** A single normalised term makes a one-bucket index. */
  lemma OneTerm(v: string, folded: string, letter: string, links: LinkMap, language: string, table: Approximations)
    requires WellFormed(table)
    requires Normalize(v) == v && IndexDowncase(v) == folded && folded != []
    requires FilingLetter(folded, Alphabet(language), table) == letter
    ensures Build([v], links, language, table) == Success(First(v, folded, letter, links).index)
  {
    assert NormalizeAll([v]) == [v];
    RunOne(v, links, language, table);
    OneStep(v, folded, letter, links, language, table);
  }

  /** A term the link map lacks still opens its letter: the bucket stays empty and one warning names the folded term. */
  lemma UnmappedTermOpensLetter(language: string, table: Approximations)
    requires WellFormed(table)
    ensures Build(["Zebra"], map[], language, table)
      == Success(Index([Bucket("z", [])], ["z"], [NoUrlMapping("zebra")]))
  {
    assert Downcase("Zebra") == "zebra";
    NotCapital("Zebra");
    LetterOfAscii("zebra", language, table);
    OneWord("Zebra", "zebra", "z", map[], language, table);
  }

  /** The lookup key is the normalised authored term, not its case fold. */
  lemma LookupByAuthoredTerm(language: string, table: Approximations)
    requires WellFormed(table)
    ensures Build(["Zebra"], map["Zebra" := ["z.html"]], language, table)
      == Success(Index([Bucket("z", [Entry("zebra", ["z.html"])])], ["z"], []))
    ensures Build(["Zebra"], map["zebra" := ["z.html"]], language, table)
      == Success(Index([Bucket("z", [])], ["z"], [NoUrlMapping("zebra")]))
  {
    assert IsWord("Zebra") && forall k :: 0 <= k < |"Zebra"| ==> "Zebra"[k] != ':' && "Zebra"[k] != '\0';
    assert Downcase("Zebra") == "zebra";
    NotCapital("Zebra");
    LetterOfAscii("zebra", language, table);
    var byTerm := map["Zebra" := ["z.html"]];
    var byFold := map["zebra" := ["z.html"]];
    assert First("Zebra", "zebra", "z", byTerm).index == Index([Bucket("z", [Entry("zebra", ["z.html"])])], ["z"], []);
    assert First("Zebra", "zebra", "z", byFold).index == Index([Bucket("z", [])], ["z"], [NoUrlMapping("zebra")]);
    OneWord("Zebra", "zebra", "z", byTerm, language, table);
    OneWord("Zebra", "zebra", "z", byFold, language, table);
  }

  /** A single word outside `CAPITALS` folds to its downcased form. */
  lemma FoldOneWord(w: string)
    requires IsWord(w) && w !in Capitals
    ensures IndexDowncase(w) == Downcase(w)
  {
    FoldJoined([w]);
    assert FoldWords([w]) == [Downcase(w)];
  }

  /** A single word outside `CAPITALS`, free of `:` and NUL, is its own normal form and folds to its downcased form. */
  lemma PlainWord(w: string)
    requires IsWord(w) && w !in Capitals
    requires forall k :: 0 <= k < |w| ==> w[k] != ':' && w[k] != '\0'
    ensures Normalize(w) == w && IndexDowncase(w) == Downcase(w) && Foldable(w)
  {
    NormalizePlain(w);
    FoldOneWord(w);
  }

  /** A vocabulary of one plain word makes a one-bucket index under the letter of its downcased form. */
  lemma OneWord(w: string, lower: string, letter: string, links: LinkMap, language: string, table: Approximations)
    requires WellFormed(table)
    requires IsWord(w) && w !in Capitals
    requires forall k :: 0 <= k < |w| ==> w[k] != ':' && w[k] != '\0'
    requires Downcase(w) == lower && FilingLetter(lower, Alphabet(language), table) == letter
    ensures Build([w], links, language, table) == Success(First(w, lower, letter, links).index)
  {
    PlainWord(w);
    OneTerm(w, lower, letter, links, language, table);
  }

  /** Downcasing text without upper-case letters changes nothing. */
  lemma DowncaseLower(s: string)
    requires forall k :: 0 <= k < |s| ==> !IsUpperLatin(s[k])
    ensures Downcase(s) == s
  {
  }

  /** "niño" is filed under n in every language. */
  lemma NinoLetter(language: string, table: Approximations)
    requires WellFormed(table)
    ensures Normalize("niño") == "niño" && Foldable("niño")
    ensures LetterOf("niño", language, table) == "n"
  {
    DowncaseLower("niño");
    NotCapital("niño");
    PlainWord("niño");
    LetterOfAscii("niño", language, table);
  }
  /** "ñandú" is filed under ñ in Spanish. */
  lemma NanduSpanish(table: Approximations)
    requires WellFormed(table)
    ensures Normalize("ñandú") == "ñandú" && Foldable("ñandú")
    ensures LetterOf("ñandú", "es", table) == "ñ"
  {
    DowncaseLower("ñandú");
    NotCapital("ñandú");
    PlainWord("ñandú");
    SpanishShape();
    assert Lower('ñ') == 'ñ' && Alphabet("es")[14] == 'ñ';
  }

  /** Outside Spanish, no non-ASCII character is in the alphabet. */
  lemma NonAsciiNotInLatin(c: char, language: string)
    requires c as int >= 128 && language != "es"
    ensures c !in Alphabet(language)
  {
  }

  /** A foldable term whose fold starts with a lower-case character the alphabet lacks files under that character's approximation. */
  lemma ApproximatedLetter(v: string, c: char, language: string, table: Approximations)
    requires WellFormed(table)
    requires IndexDowncase(v) != [] && IndexDowncase(v)[0] == c && !IsUpperLatin(c)
    requires c !in Alphabet(language) && c as int >= 128 && c in table
    ensures LetterOf(v, language, table) == Downcase(table[c])
  {
    assert Lower(c) == c;
  }

  /** In English "ñandú" is filed under its approximation's letter, n with the Latin-1 table. */
  lemma NanduEnglish(table: Approximations)
    requires WellFormed(table)
    requires 'ñ' in table && table['ñ'] == "n"
    ensures Normalize("ñandú") == "ñandú" && Foldable("ñandú")
    ensures LetterOf("ñandú", "en", table) == "n"
  {
    assert Downcase("n") == "n";
    DowncaseLower("ñandú");
    NotCapital("ñandú");
    PlainWord("ñandú");
    NonAsciiNotInLatin('ñ', "en");
    ApproximatedLetter("ñandú", 'ñ', "en", table);
  }

  /** The letter sequence of a two-term list. */
  lemma LettersTwo(a: string, b: string, language: string, table: Approximations)
    requires WellFormed(table)
    ensures Letters([a, b], language, table) == [LetterOf(a, language, table), LetterOf(b, language, table)]
  {
    assert [a, b][..1] == [a];
    assert [a][..0] == [];
  }

  /** A step records the term's letter as used exactly when it differs from the previous one. */
  lemma StepLetters(st: State, v: string, links: LinkMap, language: string, table: Approximations)
    requires WellFormed(table)
    requires Foldable(v)
    ensures Step(st, v, links, language, table).Success?
    ensures Step(st, v, links, language, table).value.prevLetter == LetterOf(v, language, table)
    ensures Step(st, v, links, language, table).value.index.usedLetters
      == if st.prevLetter == LetterOf(v, language, table) then st.index.usedLetters
         else st.index.usedLetters + [LetterOf(v, language, table)]
  {
  }

  lemma PairSnoc(a: string, b: string)
    ensures [a] + [b] == [a, b]
  {
  }

  /** The fold over two foldable terms: the used letters are their letters with a repeat dropped. */
  lemma RunTwo(a: string, b: string, links: LinkMap, language: string, table: Approximations)
    requires WellFormed(table)
    requires Foldable(a) && Foldable(b)
    ensures Run([a, b], links, language, table).Success?
    ensures Run([a, b], links, language, table).value.index.usedLetters
      == if LetterOf(a, language, table) == LetterOf(b, language, table) then [LetterOf(a, language, table)]
         else [LetterOf(a, language, table), LetterOf(b, language, table)]
  {
    RunOne(a, links, language, table);
    StepLetters(Start, a, links, language, table);
    var st := Run([a], links, language, table).value;
    PairSnoc(a, b);
    RunMore([a], b, links, language, table);
    StepLetters(st, b, links, language, table);
  }

  lemma NormalizePair(a: string, b: string)
    requires Normalize(a) == a && Normalize(b) == b
    ensures NormalizeAll([a, b]) == [a, b]
  {
  }

  /** Two normalised, foldable terms: the used letters are their letters with a repeat dropped. */
  lemma TwoTerms(a: string, b: string, links: LinkMap, language: string, table: Approximations)
    requires WellFormed(table)
    requires Normalize(a) == a && Foldable(a) && Normalize(b) == b && Foldable(b)
    ensures Build([a, b], links, language, table).Success?
    ensures Build([a, b], links, language, table).value.usedLetters
      == if LetterOf(a, language, table) == LetterOf(b, language, table) then [LetterOf(a, language, table)]
         else [LetterOf(a, language, table), LetterOf(b, language, table)]
  {
    NormalizePair(a, b);
    RunTwo(a, b, links, language, table);
  }

  /** Spanish gives ñ a section of its own after n. */
  lemma SpanishSeparatesEnye(links: LinkMap, table: Approximations)
    requires WellFormed(table)
    ensures Build(["niño", "ñandú"], links, "es", table).Success?
    ensures Build(["niño", "ñandú"], links, "es", table).value.usedLetters == ["n", "ñ"]
  {
    NinoLetter("es", table);
    NanduSpanish(table);
    TwoTerms("niño", "ñandú", links, "es", table);
  }

  /** English files ñ together with n when the table approximates ñ by n, as the Latin-1 table does. */
  lemma EnglishMergesEnye(links: LinkMap, table: Approximations)
    requires WellFormed(table)
    requires 'ñ' in table && table['ñ'] == "n"
    ensures Build(["niño", "ñandú"], links, "en", table).Success?
    ensures Build(["niño", "ñandú"], links, "en", table).value.usedLetters == ["n"]
  {
    NinoLetter("en", table);
    NanduEnglish(table);
    TwoTerms("niño", "ñandú", links, "en", table);
  }

  lemma IndiceLetter(table: Approximations)
    requires WellFormed(table)
    requires 'í' in table && table['í'] == "i"
    ensures FilingLetter("índice", Alphabet("en"), table) == "i"
  {
    NonAsciiNotInLatin('í', "en");
    assert Downcase("i") == "i";
  }

  /** "Índice" is listed as "índice" and filed under the letter of its approximation. */
  lemma IndiceFiledUnderI(links: LinkMap, table: Approximations)
    requires WellFormed(table)
    requires 'í' in table && table['í'] == "i"
    ensures Build(["Índice"], links, "en", table) == Success(First("Índice", "índice", "i", links).index)
  {
    assert Downcase("Índice") == "índice" by {
      assert Lower('Í') == 'í';
    }
    NotCapital("Índice");
    IndiceLetter(table);
    OneWord("Índice", "índice", "i", links, "en", table);
  }

  /** The letter sequence of a three-term list. */
  lemma LettersThree(a: string, b: string, c: string, language: string, table: Approximations)
    requires WellFormed(table)
    ensures Letters([a, b, c], language, table) == [LetterOf(a, language, table), LetterOf(b, language, table), LetterOf(c, language, table)]
  {
    assert [a, b, c][..2] == [a, b];
    LettersTwo(a, b, language, table);
  }

  /** The runs of x, y, x are one letter each. */
  lemma StartsAlternating(x: string, y: string)
    requires x != y
    ensures Starts([x, y, x]) == [0, 1, 2]
  {
    StartsSnoc([], x);
    assert [] + [x] == [x];
    StartsSnoc([x], y);
    assert [x] + [y] == [x, y];
    StartsSnoc([x, y], x);
    assert [x, y] + [x] == [x, y, x];
  }

  lemma NormalizeTriple(a: string, b: string, c: string)
    requires Normalize(a) == a && Normalize(b) == b && Normalize(c) == c
    requires Foldable(a) && Foldable(b) && Foldable(c)
    ensures NormalizeAll([a, b, c]) == [a, b, c]
    ensures AllFoldable(NormalizeAll([a, b, c]))
  {
    var vs := [a, b, c];
    assert forall i :: 0 <= i < 3 ==> Normalize(vs[i]) == vs[i] && Foldable(vs[i]) by {
      forall i | 0 <= i < 3
        ensures Normalize(vs[i]) == vs[i] && Foldable(vs[i])
      {
        assert i == 0 || i == 1 || i == 2;
      }
    }
    NormalizeAllFixed(vs);
  }

  /**
   A letter that comes back after another one opens a bucket of its own: with
   letters x, y, x the third term goes into a third bucket, not back into the
   first.
   */
  lemma RecurringLetter(a: string, b: string, c: string, links: LinkMap, language: string, table: Approximations)
    requires WellFormed(table)
    requires Normalize(a) == a && Normalize(b) == b && Normalize(c) == c
    requires Foldable(a) && Foldable(b) && Foldable(c)
    requires LetterOf(a, language, table) == LetterOf(c, language, table) != LetterOf(b, language, table)
    ensures Build([a, b, c], links, language, table).Success?
    ensures var vs := [a, b, c]; var bs := Build(vs, links, language, table).value.buckets;
      |bs| == 3 && forall k :: 0 <= k < 3 ==> bs[k].entries == Mapped(vs[k..k + 1], links)
  {
    var vs := [a, b, c];
    NormalizeTriple(a, b, c);
    LettersThree(a, b, c, language, table);
    StartsAlternating(LetterOf(a, language, table), LetterOf(b, language, table));
    BuildBuckets(vs, links, language, table);
  }

  /** A term that is blank after stripping stops the build. */
  lemma BlankTermFails(links: LinkMap, language: string, table: Approximations)
    requires WellFormed(table)
    ensures Build(["boolean", " \t "], links, language, table).Failure?
  {
    assert AllBlank(["boolean", " \t "][1]);
    BuildFails(["boolean", " \t "], links, language, table);
  }

  /** "API (Application Programming Interface)", spelled as its words joined by single spaces. */
  const Api: string := "API" + " " + ("(Application" + " " + ("Programming" + " " + "Interface)"))
  const ApiWords: seq<string> := ["API", "(Application", "Programming", "Interface)"]
  /** "API (application programming interface)", spelled as its words joined by single spaces. */
  const ApiFolded: string := "API" + " " + ("(application" + " " + ("programming" + " " + "interface)"))

  lemma ApiAreWords()
    ensures forall i :: 0 <= i < |ApiWords| ==> IsWord(ApiWords[i])
  {
    assert IsWord("API");
    assert IsWord("(Application");
    assert IsWord("Programming");
    assert IsWord("Interface)");
  }

  /** Joining two or more words puts one space after the first. */
  lemma JoinMore(ws: seq<string>)
    requires |ws| >= 2
    ensures Join(ws) == ws[0] + " " + Join(ws[1..])
  {
  }

  /** Joining four words puts one space between neighbours. */
  lemma JoinFour(a: string, b: string, c: string, d: string)
    ensures Join([a, b, c, d]) == a + " " + (b + " " + (c + " " + d))
  {
    var ws := [a, b, c, d];
    JoinMore(ws);
    assert ws[1..] == [b, c, d];
    JoinMore([b, c, d]);
    assert [b, c, d][1..] == [c, d];
    JoinMore([c, d]);
    assert [c, d][1..] == [d];
  }

  lemma ApiFoldWords()
    ensures FoldWords(ApiWords) == ["API", "(application", "programming", "interface)"]
  {
    assert Capitals[11] == "API";
    NotCapital("(Application");
    NotCapital("Programming");
    NotCapital("Interface)");
    assert Downcase("(Application") == "(application";
    assert Downcase("Programming") == "programming";
    assert Downcase("Interface)") == "interface)";
  }

  /** A string contains each of its prefixes. */
  lemma ContainsPrefix(a: string, b: string)
    ensures Contains(a + b, a)
  {
    assert (a + b)[0..|a|] == a;
    assert OccursAt(a + b, a, 0);
  }

  /**
   An acronym with a parenthesised gloss: `keep_Capitalized?` would keep it
   whole, but the list shows the `index_downcase` form, which keeps only the
   acronym.
   */
  lemma AcronymGloss()
    ensures KeepCapitalized(Api)
    ensures IndexDowncase(Api) == ApiFolded
  {
    assert KeepCapitalized(Api) by {
      var rest := "(Application" + " " + ("Programming" + " " + "Interface)");
      AppendAssoc("API", " ", rest);
      ContainsPrefix("API", " " + rest);
      assert Capitals[11] == "API";
    }
    ApiAreWords();
    JoinFour("API", "(Application", "Programming", "Interface)");
    FoldJoined(ApiWords);
    ApiFoldWords();
    JoinFour("API", "(application", "programming", "interface)");
  }
}
